=== FILE: README.md ===
# Passkey ceremonies, tokens and post reactions — a Dafny model

This project models the request-handling core of a small social-posting web application whose
accounts log in with passkeys (WebAuthn) instead of passwords:

- **Passkey ceremonies.** Registration and login are two-phase. `register_begin` / `login_begin`
  ask the webauthn-rs library for a challenge and keep the library's state under a new id in
  `REGISTRATION_STATES` / `AUTHENTICATION_STATES`; `register_complete` / `login_complete` remove
  that entry and only then have the library verify the client's response. Registration is gated by
  a decision table on (reset mode, account exists), and an in-memory passkey cache
  (`CREDENTIAL_STORE`) sits next to the durable user database.
- **Token routes.** `validate_account` and `reset_account` turn the token service's verdict into
  fixed redirect targets; `recover_account` mails a recovery link.
- **Posts.** `like_post` is a three-valued toggle, `save_post` appends a post, and `create_post`
  checks text length (in UTF-8 bytes) and uploaded images.
- **Input validators.** The display-name regex `^[a-zA-ZÀ-ÖØ-öø-ÿ\s'-]{2,50}$` and the image
  size bound.

Each handler is a pure function from (request, environment, state) to (reply, next state). The
state is immutable maps: the two ceremony maps, the passkey cache, the user database and the mail
sent so far. The *environment* (`HandlersUnauth.Env`) carries everything the model cannot
compute. That includes the webauthn-rs operations as uninterpreted function values
(`Passkeys.Library`), the email syntax check, the UUIDs a request draws, and the token service's
answers. It also holds the faults the database injects at each call site and whether mail and
template rendering succeed.

Modules: `Wrappers` (Option/Result), `Http` (statuses, errors, request fields), `Input`
(`utils/input.rs`), `Passkeys` (library values and oracles), `UserStore` (the user database),
`WebAuthn` (`utils/webauthn.rs`), `HandlersUnauth` (`backend/handlers_unauth.rs`),
`CeremonyProperties` (properties of request sequences) and `HandlersAuth`
(`backend/handlers_auth.rs`).

Where the code departs from what the ceremony is meant to guarantee, the model follows the code:

- `register_begin` accepts a reset for an account that does not exist (`(true, Ok(false))`).
  `register_complete` refuses that combination with a 500, so the two gates differ.
- `complete_authentication` receives the challenge recorded at login begin but never reads it
  (`WebAuthn.ServerChallengeIsIgnored`); the only check is the library's own.
- `login_complete` redirects to `/home` and establishes no session.
- The verification token and mail are produced after *every* successful completion, reset
  completions included. A mail failure is only logged (`CeremonyProperties.VerificationMailIsBestEffort`).
  In `recover_account` a mail failure is a 500.
- The reset branch of `register_complete` reads the account's passkey from the cache and
  `unwrap`s it. But `register_begin` has just removed that entry, and only a completed registration
  puts it back. The model keeps that `unwrap` as an explicit `Panicked` reply. It proves
  (`CeremonyProperties.ResetBeginBlocksRegistration`) that after a reset begin for an existing
  account, no sequence of requests ever completes a registration for that account again.
- A registration state is not bound to the email it was begun for. A reset completion for an
  account whose passkey is still cached succeeds with a state begun for any other email
  (`CeremonyProperties.ResetWithForeignState`). "The reset flow cannot succeed" is only about the
  account the reset begin named.

## Model

| member | source | states |
|---|---|---|
| `Input.IsValidDisplayName` | lab02/src/utils/input.rs:8-14 | A name is valid iff it has 2 to 50 characters, each an ASCII letter, a Latin-1 letter other than × and ÷, Unicode whitespace, `'` or `-` |
| `Input.NotDisplayNameChar` | lab02/src/utils/input.rs:9 | Digits, ASCII punctuation other than `'` and `-`, × and ÷ are outside the display-name class |
| `Input.DisplayNameRejections` | lab02/src/utils/input.rs:9 | Names of 0, 1 or more than 50 characters are rejected whatever their content, and so is any name holding a digit, ASCII punctuation other than `'` and `-`, × or ÷ |
| `Input.MatchesRepeatIsLengthAndClass` | lab02/src/utils/input.rs:9 | An anchored `^[class]{min,max}$` regex matches exactly the strings whose length is within bounds and whose every character is in the class |
| `Input.DisplayNameClassIsDisplayNameChar` | lab02/src/utils/input.rs:9 | The class `a-zA-ZÀ-ÖØ-öø-ÿ\s'-` is exactly: ASCII letters, U+00C0..U+00FF minus × and ÷, White_Space characters, apostrophe and hyphen |
| `Input.ValidateImageFile` | lab02/src/utils/input.rs:17-40 | An upload is accepted iff it is `image/jpeg`, decodes, is at most 500×500 pixels and at most 10·1024·1024 bytes; every rejection is a 400 with the reason for the first failed check, and an oversized decoded JPEG (too wide, too high or too many bytes) gets the size message |
| `Input.SmallerImageStaysAccepted` | lab02/src/utils/input.rs:34-39 | An accepted image with fewer pixels on either side or fewer bytes is still accepted |
| `WebAuthn.BeginRegistration` | lab02/src/utils/webauthn.rs:34-64 | Succeeds exactly when the library starts a registration for the given user handle, name and display name, and returns what the library returned |
| `WebAuthn.CompleteRegistration` | lab02/src/utils/webauthn.rs:67-82 | A failed verification changes neither cache nor store. Otherwise the cache maps the email to the verified passkey before the store is written, and a store failure is an error that leaves that cache entry in place. On success the email's record differs from before only in holding that passkey, and every other record is unchanged |
| `WebAuthn.StartAuthentication` | lab02/src/utils/webauthn.rs:98-101 | The authentication is started with the one-element list holding exactly the passkey found |
| `WebAuthn.BeginAuthentication` | lab02/src/utils/webauthn.rs:85-112 | A cached passkey is used without consulting the store. On a miss the store is read, and its failure is an error. With no passkey anywhere it fails and no authentication is started |
| `WebAuthn.CacheHitIgnoresStore` | lab02/src/utils/webauthn.rs:88-93 | On a cache hit the store's contents and faults have no influence on the outcome |
| `WebAuthn.CompleteAuthentication` | lab02/src/utils/webauthn.rs:115-125 | Succeeds iff the library verifies the assertion against the stored state |
| `WebAuthn.ServerChallengeIsIgnored` | lab02/src/utils/webauthn.rs:115-125 | The recorded server challenge has no effect on the outcome |
| `HandlersUnauth.BeginGate` | lab02/src/backend/handlers_unauth.rs:59-64 | Registration may begin iff the existence check succeeded and either reset mode is on or the account does not exist |
| `HandlersUnauth.CompleteGate` | lab02/src/backend/handlers_unauth.rs:137-154 | Only (false, Ok(false)) creates an account and only (true, Ok(true)) replaces a passkey; every other combination is refused |
| `HandlersUnauth.RegisterBegin` | lab02/src/backend/handlers_unauth.rs:42-87 | A missing or invalid email, a refused gate or a library failure is a 400 and leaves all state unchanged. Success adds one entry under the new id (one more entry when the id is fresh) whose challenge is the one returned, drops the email from the cache, and touches nothing else |
| `HandlersUnauth.RegisterComplete` | lab02/src/backend/handlers_unauth.rs:90-184 | (Its contract is the predicates `CompletionReplies`, `CompletionAccounts` and `CompletionCeremonyState`.) Field errors are 400s that change nothing. A refused gate is a 500 before any state is touched, and a reset with no cached passkey panics. A `create` failure is the 500 "Failed to create user", and a reset-branch `set_passkey` failure is a 500 with the database's message; both change nothing. Past the branch every failure is a 400, and the account stays as the branch wrote it: newly created with no passkey, or holding the cached passkey. The cache is unchanged unless the library accepted the attestation, and then it holds the verified passkey even if the store write fails. The user is created before the state lookup, so an unknown id still leaves it created; an unknown id is a 400 that leaves the ceremony states and the cache unchanged. A found state is removed even if verification fails. Success caches and stores the verified passkey. A new account is exactly (first name, last name, verified passkey, unverified). A reset changes only the passkey of the record. Other accounts are never changed, no account becomes verified, and the only mail is the verification mail of a success, which is sent exactly when a token was generated and the mail service accepted it |
| `HandlersUnauth.FieldError` | lab02/src/backend/handlers_unauth.rs:94-135 | A malformed completion request is refused with the message of its first failed check, in the handler's order: a missing email, then an invalid one, then a missing first name, and so on down to an unparsable response |
| `HandlersUnauth.CheckedCompletionAccounts` | lab02/src/backend/handlers_unauth.rs:137-165 | Past the field checks, the user records change as the `RegisterComplete` row says: created only by the new-account branch, otherwise only the request's own passkey, never verified |
| `HandlersUnauth.CheckedCompletionCeremonyState` | lab02/src/backend/handlers_unauth.rs:156-181 | Past the field checks, the state is consumed once looked up, the cache follows the library's verdict, and the outbox gains exactly the verification mail of a delivered success |
| `HandlersUnauth.FinishRegistration` | lab02/src/backend/handlers_unauth.rs:156-183 | An unknown state id is a 400 that changes nothing. A known one is removed. Success happens iff the library verifies, the account exists and the store write succeeds, and then exactly the email's cache entry and passkey change. Any failure is a 400 that leaves the store as it was. A refused attestation leaves the cache unchanged; an accepted one is cached even when the store write then fails. Success sends the verification mail exactly when a token was generated and delivered, and otherwise leaves the outbox alone |
| `HandlersUnauth.SendVerificationMail` | lab02/src/backend/handlers_unauth.rs:167-181 | A verification mail with the `/validate/` link is recorded exactly when a token was generated and the mail service accepted it; otherwise nothing changes |
| `HandlersUnauth.LoginBegin` | lab02/src/backend/handlers_unauth.rs:187-218 | Email errors and passkey-lookup errors are 400s that change nothing. Success records the library state and the issued challenge under the new id and changes nothing else |
| `HandlersUnauth.LoginComplete` | lab02/src/backend/handlers_unauth.rs:221-253 | Field errors and an unknown id are 400s that change nothing. A known id is removed before verification. Success redirects to `/home`, and failure is a 401 with the state still removed |
| `HandlersUnauth.ValidateAccount` | lab02/src/backend/handlers_unauth.rs:261-269 | Consumed and verified goes to `/login?validated=true` (and marks the account verified). Consumed but not verified goes to `validation_failed`, and an unconsumed token to `invalid_token` |
| `HandlersUnauth.ResetAccount` | lab02/src/backend/handlers_unauth.rs:324-341 | A consumed token yields a refresh page to the reset-mode registration for its email; any token failure yields one to `recovery_failed` |
| `HandlersUnauth.RecoverAccount` | lab02/src/backend/handlers_unauth.rs:272-321 | For a known email a token failure or a mail failure is a 500. The page shows its notice iff the email is known. Exactly the recovery mail with the `/recover/` link is added when the email is known, a token was generated and the mail went out, even if the page then fails to render. Otherwise nothing changes. A page that fails to render is the 500 "Internal server error.", and no path panics |
| `CeremonyProperties.ReplayedRegistrationFails` | lab02/src/backend/handlers_unauth.rs:137-165 | Replaying a request that completed a registration never succeeds |
| `CeremonyProperties.LoginStateUsedOnce` | lab02/src/backend/handlers_unauth.rs:235-250 | A second completion with the same state id is always "Invalid or expired authentication state" |
| `CeremonyProperties.AwaitingResetIsStable` | lab02/src/backend/handlers_unauth.rs:137-165 | While an existing account has no cached passkey, no request completes a registration for it or caches a passkey for it |
| `CeremonyProperties.AwaitingResetNeverCompletes` | lab02/src/backend/handlers_unauth.rs:137-165 | The same over any sequence of requests |
| `CeremonyProperties.ResetBeginBlocksRegistration` | lab02/src/backend/handlers_unauth.rs:76-146 | After a successful reset begin for an existing account, no later request completes a registration for that account |
| `CeremonyProperties.NewAccountCeremony` | lab02/src/backend/handlers_unauth.rs:42-218 | Begin then complete with the returned id creates the unverified account with the verified passkey and consumes the state. A later login begin allows exactly that passkey |
| `CeremonyProperties.ResetWithForeignState` | lab02/src/backend/handlers_unauth.rs:146-165 | A reset completion for an account with a cached passkey succeeds with any stored registration state the library accepts, whichever email it was begun for |
| `CeremonyProperties.OnlyValidationVerifies` | lab02/src/backend/handlers_unauth.rs:261-269 | No request except a validation whose token was consumed for an email makes that email a verified account |
| `CeremonyProperties.VerifiedOnlyThroughValidation` | lab02/src/backend/handlers_unauth.rs:261-269 | The same over any sequence of requests |
| `CeremonyProperties.NewAccountValidated` | lab02/src/backend/handlers_unauth.rs:90-269 | Registering a new account and then validating its token redirects to `/login?validated=true` and leaves the account verified, with its names and the verified passkey |
| `CeremonyProperties.Between` | lab02/src/backend/handlers_unauth.rs:327-329 | Stripping a prefix and a suffix gives a middle that they surround |
| `CeremonyProperties.BetweenConcat` | lab02/src/backend/handlers_unauth.rs:327-329 | Stripping recovers exactly the middle of a concatenation |
| `CeremonyProperties.RecoveryLinkBlocksRegistration` | lab02/src/backend/handlers_unauth.rs:324-341 | The page for a consumed recovery token leads the client to a reset-mode begin for that token's email, and the error page leads to none. Once that begin succeeds on an existing account, no registration for it ever completes |
| `CeremonyProperties.RecoveryMailsAfterStep` | lab02/src/backend/handlers_unauth.rs:294-310 | Keeping every account and adding only recovery mails addressed to accounts keeps every recovery mail addressed to an account |
| `CeremonyProperties.RecoveryMailsAfterRegisterComplete` | lab02/src/backend/handlers_unauth.rs:167-181 | A registration completion removes no account and sends no recovery mail |
| `CeremonyProperties.RecoveryMailsAfterRecoverAccount` | lab02/src/backend/handlers_unauth.rs:282-310 | A recovery request removes no account and mails only an existing one |
| `CeremonyProperties.RecoveryMailsStayAddressed` | lab02/src/backend/handlers_unauth.rs:272-321 | No request removes an account or sends a recovery mail to an unknown email |
| `CeremonyProperties.RecoveryMailsOnlyToAccounts` | lab02/src/backend/handlers_unauth.rs:294-310 | Over any sequence of requests, every recovery mail goes to an existing account |
| `CeremonyProperties.VerificationMailIsBestEffort` | lab02/src/backend/handlers_unauth.rs:167-183 | The reply and all stores of a registration completion are the same whether or not the token and mail succeed |
| `HandlersAuth.Like` | lab02/src/backend/handlers_auth.rs:184-190 | A like turns 1 into 0 and any other value into 1 |
| `HandlersAuth.Dislike` | lab02/src/backend/handlers_auth.rs:191-197 | A dislike turns -1 into 0 and any other value into -1 |
| `HandlersAuth.ToggleExamples` | lab02/src/backend/handlers_auth.rs:184-197 | Liking twice from 0 gives 0, and like then dislike gives -1 |
| `HandlersAuth.FirstIndexOf` | lab02/src/backend/handlers_auth.rs:180 | Finds the first post with the id, or reports that none has it |
| `HandlersAuth.LikePost` | lab02/src/backend/handlers_auth.rs:167-204 | A missing or bad id, a missing action, an unknown post (404) or an unknown action (400) leaves the list unchanged. Otherwise the request always succeeds with 200: only the first post with that id has its reaction toggled, and the length never changes |
| `HandlersAuth.FirstIndexOfIgnoresLikes` | lab02/src/backend/handlers_auth.rs:180-197 | Changing a reaction never changes which post an id finds |
| `HandlersAuth.LikeTwiceRestores` | lab02/src/backend/handlers_auth.rs:180-200 | Liking a post with no reaction twice restores the whole list |
| `HandlersAuth.LikeThenDislike` | lab02/src/backend/handlers_auth.rs:180-200 | Like then dislike leaves the post at -1 |
| `HandlersAuth.Utf8Length` | lab02/src/backend/handlers_auth.rs:68 | The byte length is between one and four bytes per character, and equals the character count for ASCII text |
| `HandlersAuth.PostTextBounds` | lab02/src/backend/handlers_auth.rs:68-70 | Empty text and text over 200 characters are rejected, 1 to 50 characters are always accepted, and ASCII text is accepted iff it has 1 to 200 characters |
| `HandlersAuth.SavePost` | lab02/src/backend/handlers_auth.rs:144-164 | Exactly one post is appended, with the given text and image path and no reaction, and its id is returned |
| `HandlersAuth.LastSetIsSomeField` | lab02/src/backend/handlers_auth.rs:105 | Some value is set iff some field sets one |
| `HandlersAuth.LastSetFront` | lab02/src/backend/handlers_auth.rs:72 | A later field's value overrides the first field's |
| `HandlersAuth.ScanParts` | lab02/src/backend/handlers_auth.rs:61-103 | The field loop succeeds iff every field passes: each text field is 1 to 200 bytes, and each file field is a valid image whose upload was written. On success it yields the LAST text field and the LAST stored upload path, or what it was given when there is none |
| `HandlersAuth.ScanPartsStopsAtFirstFailure` | lab02/src/backend/handlers_auth.rs:61-103 | A rejection is the error of the first field that does not pass: the text-length 400, the image validator's 400, or a 500 carrying the upload-write message |
| `HandlersAuth.LastTextIsValid` | lab02/src/backend/handlers_auth.rs:68-72 | When every field passes, the last text set is a valid post text |
| `HandlersAuth.CreatePost` | lab02/src/backend/handlers_auth.rs:57-111 | A post is saved iff a text field was sent and every field passes. Then exactly one post is appended: the new id, the last text field, the last stored upload path and no reaction. A body whose fields all pass but has no text gets "Text content is required". A failing field is answered with its own error: the text-length 400, the image validator's 400, or the upload-write 500. Otherwise the list is unchanged |
| `HandlersAuth.ReactionsStayInRange` | lab02/src/backend/handlers_auth.rs:144-197 | Over any sequence of likes and post creations every reaction stays in {-1, 0, 1} |

## Left out

- webauthn-rs cryptography and the challenge payloads: the library is a record of uninterpreted functions, and only the challenge of a payload is modelled. The relying-party configuration in `WEBAUTHN` is fixed and not modelled.
- UUID randomness: state ids, user handles and post ids are inputs. The model assumes no freshness; `HashMap::insert` overwriting is modelled, and freshness appears only as a hypothesis of the counting property.
- The token service (`database::token`) is not part of this model: `generate` and `consume` outcomes are inputs, and its one-time semantics are not asserted.
- The user database (`database::user`) is not part of this model: it is a map whose operations fail with injected faults. `set_passkey` and `verify` on an unknown email are assumed to fail, and `get_passkey` on one is assumed to find no passkey.
- `validate_email` (validator crate), MIME parsing and image decoding are foreign code: their verdicts are inputs.
- JSON and multipart extraction: fields are `Option`/`Field` values. Errors of the multipart stream itself (`next_field`, `bytes`) are not modelled.
- Handlebars rendering: only whether the recovery page renders is modelled. The page handlers `index`, `login_page`, `register_page`, `recover_page`, `logout` and `home` only render or redirect and are left out.
- `send_mail`: only whether it succeeds is modelled. A sent mail is recorded as recipient, subject and link, not as its full body.
- File I/O: `save_posts_to_file`, `load_posts_from_file` and writing uploads to disk; an upload's write outcome (its path, or the message of the directory, create or write failure) is an input.
- The client side of recovery: the registration page's script is modelled only as reading the email and reset mode back out of the refresh page (`CeremonyProperties.ResetBeginOf`). URL encoding of the email is not modelled; the code inserts it unescaped.
- `RwLock`/async concurrency: each handler is one atomic step. The poisoned-lock error of `like_post` ("Failed to write posts") is not modelled.
- Panics: a panic is a `Panicked` reply with the state as it was at that point. What the web framework does afterwards is not modelled.
- `likes` is an `i32` in the code; the model uses unbounded integers, which is exact because the toggles only ever write -1, 0 or 1.
- The `unwrap`/`unwrap_or("")` on the payload's challenge: the challenge is always a string here.

=== FILE: ceremony_properties.dfy ===
/**
 * Properties of sequences of requests to the unauthenticated routes: one-time use of ceremony
 * state, a full new-account ceremony, and what a started reset does to an account.
 */
module CeremonyProperties {
  import opened Wrappers
  import opened Http
  import opened Passkeys
  import opened UserStore
  import opened WebAuthn
  import opened HandlersUnauth
  import Input

  /** One request to a state-changing route, with its environment. */
  datatype Request =
    | RegisterBeginCall(registerBegin: RegisterBeginRequest, env: Env)
    | RegisterCompleteCall(registerComplete: RegisterCompleteRequest, env: Env)
    | LoginBeginCall(loginBegin: LoginBeginRequest, env: Env)
    | LoginCompleteCall(loginComplete: LoginCompleteRequest, env: Env)
    | ValidateAccountCall(env: Env)
    | RecoverAccountCall(recover: RecoverRequest, env: Env)

  /** The server state after one request. */
  function Apply(s: Server, r: Request): Server {
    match r
    case RegisterBeginCall(req, env) => RegisterBegin(req, env, s).next
    case RegisterCompleteCall(req, env) => RegisterComplete(req, env, s).next
    case LoginBeginCall(req, env) => LoginBegin(req, env, s).next
    case LoginCompleteCall(req, env) => LoginComplete(req, env, s).next
    case ValidateAccountCall(env) => ValidateAccount(env, s).next
    case RecoverAccountCall(req, env) => RecoverAccount(req, env, s).next
  }

  /** The server state after the requests of `trace`, one after the other. */
  function Run(s: Server, trace: seq<Request>): Server
    decreases |trace|
  {
    if |trace| == 0 then s else Run(Apply(s, trace[0]), trace[1..])
  }

  /** Whether request `r`, served in state `s`, completes a registration for `email`. */
  predicate CompletesRegistration(s: Server, r: Request, email: Email) {
    && r.RegisterCompleteCall?
    && r.registerComplete.email == Some(email)
    && RegisterComplete(r.registerComplete, r.env, s).reply.Done?
  }

  /** Whether no request of `trace`, served from `s` on, completes a registration for `email`. */
  predicate NeverCompletesRegistration(s: Server, trace: seq<Request>, email: Email)
    decreases |trace|
  {
    |trace| == 0
    || (!CompletesRegistration(s, trace[0], email) && NeverCompletesRegistration(Apply(s, trace[0]), trace[1..], email))
  }

  /** An account whose passkey is not cached: the state a reset begin leaves an existing account in. */
  predicate AwaitingReset(s: Server, email: Email) {
    email in s.users && email !in s.cache
  }

  /** A completed registration cannot be replayed: the same request, served again, never succeeds. */
  lemma ReplayedRegistrationFails(req: RegisterCompleteRequest, env: Env, env2: Env, s: Server)
    requires RegisterComplete(req, env, s).reply.Done?
    ensures !RegisterComplete(req, env2, RegisterComplete(req, env, s).next).reply.Done?
  {
  }

  /** A login ceremony state is used at most once, whatever the first verification said. */
  lemma LoginStateUsedOnce(req: LoginCompleteRequest, env: Env, env2: Env, s: Server)
    requires req.response.Present? && req.stateId.Some?
    ensures var s1 := LoginComplete(req, env, s).next;
            LoginComplete(req, env2, s1) == Rejected(BadRequest, "Invalid or expired authentication state", s1)
  {
  }

  /** No request lets an account awaiting a reset complete a registration, or leaves that state. */
  lemma AwaitingResetIsStable(s: Server, r: Request, email: Email)
    requires AwaitingReset(s, email)
    ensures !CompletesRegistration(s, r, email)
    ensures AwaitingReset(Apply(s, r), email)
  {
  }

  /**
   * Once an existing account's passkey has left the cache, no sequence of requests ever completes
   * a registration — new-account or reset — for it.
   */
  lemma {:induction false} AwaitingResetNeverCompletes(s: Server, trace: seq<Request>, email: Email)
    requires AwaitingReset(s, email)
    ensures NeverCompletesRegistration(s, trace, email)
    ensures AwaitingReset(Run(s, trace), email)
    decreases |trace|
  {
    if |trace| > 0 {
      AwaitingResetIsStable(s, trace[0], email);
      AwaitingResetNeverCompletes(Apply(s, trace[0]), trace[1..], email);
    }
  }

  /**
   * The reset flow cannot succeed: a reset begin for an existing account clears its cached passkey,
   * and from then on every reset completion reaches the cache `unwrap` and panics, or fails earlier.
   * This is about the account the begin named: a ceremony state is not bound to an email, so a reset
   * completion for an account whose passkey IS cached succeeds with a state begun for any other
   * email (`ResetWithForeignState`).
   */
  lemma ResetBeginBlocksRegistration(req: RegisterBeginRequest, env: Env, s: Server, trace: seq<Request>)
    requires req.email.Some? && req.email.value in s.users
    requires RegisterBegin(req, env, s).reply.Done?
    ensures NeverCompletesRegistration(RegisterBegin(req, env, s).next, trace, req.email.value)
  {
    AwaitingResetNeverCompletes(RegisterBegin(req, env, s).next, trace, req.email.value);
  }

  /**
   * A full new-account ceremony: begin, then complete with the returned state id and an attestation
   * the library accepts, creates the unverified account with the verified passkey, consumes the
   * state, and a later login begin starts an authentication allowing exactly that passkey.
   */
  lemma NewAccountCeremony(
    email: Email, first: string, last: string, response: RegisterPublicKeyCredential, passkey: Passkey,
    env1: Env, env2: Env, env3: Env, s: Server)
    requires email !in s.users
    requires env1.isValidEmail(email) && env2.isValidEmail(email) && env3.isValidEmail(email)
    requires env1.faults.existsFault.None? && env2.faults.existsFault.None?
    requires env2.faults.createFault.None? && env2.faults.storeFault.None?
    requires Input.IsValidDisplayName(first) && Input.IsValidDisplayName(last)
    requires env1.lib.startRegistration(env1.newUserHandle, email, email).Some?
    requires env2.lib.finishRegistration(response, env1.lib.startRegistration(env1.newUserHandle, email, email).value.1)
             == Some(passkey)
    ensures var begun := RegisterBegin(RegisterBeginRequest(Some(email), None), env1, s);
            && begun.reply.Done?
            && var completeReq := RegisterCompleteRequest(
                 Some(email), None, Some(first), Some(last), Some(begun.reply.value.stateId), Present(response));
               var done := RegisterComplete(completeReq, env2, begun.next);
               && done.reply == Done(Created)
               && done.next.users[email] == User(first, last, Some(passkey), false)
               && env1.newStateId !in done.next.registrations
               && LoginBegin(LoginBeginRequest(Some(email)), env3, done.next).reply.Done?
                  == env3.lib.startAuthentication([passkey]).Some?
  {
  }

  /** A completed registration's reply and stores do not depend on the verification mail going out. */
  lemma VerificationMailIsBestEffort(
    req: RegisterCompleteRequest, env: Env, s: Server, generated: Result<Token, DbError>, delivered: bool)
    ensures var st := RegisterComplete(req, env, s);
            var st' := RegisterComplete(req, env.(generated := generated, mailDelivered := delivered), s);
            && st'.reply == st.reply
            && st'.next.(outbox := []) == st.next.(outbox := [])
  {
  }

  /**
   * A registration state is not tied to the email it was begun for: a reset completion for an
   * account whose passkey is still cached succeeds with any stored state the library accepts.
   */
  lemma ResetWithForeignState(req: RegisterCompleteRequest, env: Env, s: Server)
    requires WellFormed(req, env) && req.resetMode == Some(true)
    requires req.email.value in s.users && req.email.value in s.cache
    requires env.faults.existsFault.None? && env.faults.resetStoreFault.None? && env.faults.storeFault.None?
    requires req.stateId.value in s.registrations
    requires env.lib.finishRegistration(req.response.value, s.registrations[req.stateId.value].registrationState).Some?
    ensures RegisterComplete(req, env, s).reply == Done(Created)
  {
  }

  // ---------------------------------------------------------------------------
  // Account validation
  // ---------------------------------------------------------------------------

  /** Whether `email` names a verified account in `s`. */
  predicate IsVerified(s: Server, email: Email) {
    email in s.users && s.users[email].verified
  }

  /** Whether `r` is a validation whose token was consumed for `email`. */
  predicate ValidatesEmail(r: Request, email: Email) {
    r.ValidateAccountCall? && r.env.consumed == Ok(email)
  }

  /** No request but a validation of `email` itself makes `email` verified. */
  lemma OnlyValidationVerifies(s: Server, r: Request, email: Email)
    requires !IsVerified(s, email) && !ValidatesEmail(r, email)
    ensures !IsVerified(Apply(s, r), email)
  {
  }

  /** An account that is not verified stays so through any trace without a validation of its email. */
  lemma {:induction false} VerifiedOnlyThroughValidation(s: Server, trace: seq<Request>, email: Email)
    requires !IsVerified(s, email)
    requires forall i :: 0 <= i < |trace| ==> !ValidatesEmail(trace[i], email)
    ensures !IsVerified(Run(s, trace), email)
    decreases |trace|
  {
    if |trace| > 0 {
      OnlyValidationVerifies(s, trace[0], email);
      VerifiedOnlyThroughValidation(Apply(s, trace[0]), trace[1..], email);
    }
  }

  /**
   * Registering and then following the verification link: the new account ends verified, with its
   * names and the verified passkey, and the client is sent to the login page.
   */
  lemma NewAccountValidated(
    email: Email, first: string, last: string, response: RegisterPublicKeyCredential, passkey: Passkey,
    env1: Env, env2: Env, env3: Env, s: Server)
    requires email !in s.users
    requires env1.isValidEmail(email) && env2.isValidEmail(email)
    requires env1.faults.existsFault.None? && env2.faults.existsFault.None?
    requires env2.faults.createFault.None? && env2.faults.storeFault.None?
    requires Input.IsValidDisplayName(first) && Input.IsValidDisplayName(last)
    requires env1.lib.startRegistration(env1.newUserHandle, email, email).Some?
    requires env2.lib.finishRegistration(response, env1.lib.startRegistration(env1.newUserHandle, email, email).value.1)
             == Some(passkey)
    requires env3.consumed == Ok(email) && env3.faults.verifyFault.None?
    ensures var begun := RegisterBegin(RegisterBeginRequest(Some(email), None), env1, s);
            var completeReq := RegisterCompleteRequest(
              Some(email), None, Some(first), Some(last), Some(env1.newStateId), Present(response));
            var validated := ValidateAccount(env3, RegisterComplete(completeReq, env2, begun.next).next);
            && validated.reply == Done(Redirect("/login?validated=true"))
            && validated.next.users[email] == User(first, last, Some(passkey), true)
  {
    NewAccountCeremony(email, first, last, response, passkey, env1, env2, env1, s);
  }

  // ---------------------------------------------------------------------------
  // Account recovery
  // ---------------------------------------------------------------------------

  /** `text` with `prefix` and `suffix` removed, when it starts and ends with them. */
  function Between(text: string, prefix: string, suffix: string): (middle: Option<string>)
    ensures middle.Some? ==> text == prefix + middle.value + suffix
  {
    if |prefix| + |suffix| <= |text| && text[..|prefix|] == prefix && text[|text| - |suffix|..] == suffix then
      Some(text[|prefix|..|text| - |suffix|])
    else None
  }

  /** `Between` undoes the concatenation it strips. */
  lemma BetweenConcat(prefix: string, middle: string, suffix: string)
    ensures Between(prefix + middle + suffix, prefix, suffix) == Some(middle)
  {
    var text := prefix + middle + suffix;
    assert text[..|prefix|] == prefix;
    assert text[|text| - |suffix|..] == suffix;
    assert text[|prefix|..|text| - |suffix|] == middle;
  }

  /**
   * The registration begin a client makes from a page `reset_account` served: it follows the refresh
   * to the registration page, which starts a reset-mode ceremony for the email in the link.
   */
  function ResetBeginOf(page: string): Option<RegisterBeginRequest> {
    match Between(page, "<meta http-equiv='refresh' content='0;url=", "'/>")
    case None => None
    case Some(url) =>
      match Between(url, "/register?reset_mode=true&email=", "&success=true")
      case None => None
      case Some(email) => Some(RegisterBeginRequest(Some(email), Some(true)))
  }

  /**
   * The recovery flow end to end: a consumed recovery token leads to a reset-mode begin for the
   * token's email, a failed one to none; once that begin succeeds on an existing account, no
   * registration for it ever completes.
   */
  lemma RecoveryLinkBlocksRegistration(email: Email, env: Env, s: Server, trace: seq<Request>, failure: DbError)
    ensures ResetBeginOf(ResetAccount(Ok(email))) == Some(RegisterBeginRequest(Some(email), Some(true)))
    ensures ResetBeginOf(ResetAccount(Err(failure))) == None
    ensures email in s.users && RegisterBegin(RegisterBeginRequest(Some(email), Some(true)), env, s).reply.Done? ==>
              NeverCompletesRegistration(RegisterBegin(RegisterBeginRequest(Some(email), Some(true)), env, s).next,
                                         trace, email)
  {
    var url := "/register?reset_mode=true&email=" + email + "&success=true";
    BetweenConcat("<meta http-equiv='refresh' content='0;url=", url, "'/>");
    BetweenConcat("/register?reset_mode=true&email=", email, "&success=true");
    var errorUrl := "/register?error=recovery_failed";
    BetweenConcat("<meta http-equiv='refresh' content='0;url=", errorUrl, "'/>");
    assert |errorUrl| < |"/register?reset_mode=true&email="|;
    if email in s.users && RegisterBegin(RegisterBeginRequest(Some(email), Some(true)), env, s).reply.Done? {
      ResetBeginBlocksRegistration(RegisterBeginRequest(Some(email), Some(true)), env, s, trace);
    }
  }

  /** Every recovery mail in the outbox is addressed to an existing account. */
  predicate RecoveryMailsToAccounts(s: Server) {
    forall i :: 0 <= i < |s.outbox| && s.outbox[i].subject == RecoverySubject ==> s.outbox[i].to in s.users
  }

  /** Adding accounts and at most one mail, a recovery mail only to an account, keeps the invariant. */
  lemma RecoveryMailsAfterStep(s: Server, s': Server, sent: seq<Mail>)
    requires RecoveryMailsToAccounts(s)
    requires s.users.Keys <= s'.users.Keys
    requires s'.outbox == s.outbox + sent
    requires forall i :: 0 <= i < |sent| && sent[i].subject == RecoverySubject ==> sent[i].to in s'.users
    ensures RecoveryMailsToAccounts(s')
  {
    forall i | 0 <= i < |s'.outbox| && s'.outbox[i].subject == RecoverySubject
      ensures s'.outbox[i].to in s'.users
    {
      if i >= |s.outbox| {
        assert s'.outbox[i] == sent[i - |s.outbox|];
      }
    }
  }

  /** A registration completion only ever sends a verification mail. */
  lemma RecoveryMailsAfterRegisterComplete(s: Server, req: RegisterCompleteRequest, env: Env)
    requires RecoveryMailsToAccounts(s)
    ensures s.users.Keys <= RegisterComplete(req, env, s).next.users.Keys
    ensures RecoveryMailsToAccounts(RegisterComplete(req, env, s).next)
  {
    var s' := RegisterComplete(req, env, s).next;
    if s'.outbox == s.outbox {
      RecoveryMailsAfterStep(s, s', []);
    } else {
      var mail := Mail(req.email.value, VerificationSubject, "http://localhost:8080/validate/" + env.generated.value);
      assert mail.subject != RecoverySubject by {
        assert VerificationSubject[1] != RecoverySubject[1];
      }
      RecoveryMailsAfterStep(s, s', [mail]);
    }
  }

  /** A recovery request mails only an existing account. */
  lemma RecoveryMailsAfterRecoverAccount(s: Server, req: RecoverRequest, env: Env)
    requires RecoveryMailsToAccounts(s)
    ensures s.users.Keys <= RecoverAccount(req, env, s).next.users.Keys
    ensures RecoveryMailsToAccounts(RecoverAccount(req, env, s).next)
  {
    var s' := RecoverAccount(req, env, s).next;
    if s' != s {
      RecoveryMailsAfterStep(s, s', [Mail(req.email.value, RecoverySubject,
                                          "http://localhost:8080/recover/" + env.generated.value)]);
    }
  }

  /** No request sends a recovery mail to an unknown email, and accounts are never removed. */
  lemma RecoveryMailsStayAddressed(s: Server, r: Request)
    requires RecoveryMailsToAccounts(s)
    ensures s.users.Keys <= Apply(s, r).users.Keys
    ensures RecoveryMailsToAccounts(Apply(s, r))
  {
    match r {
      case RegisterCompleteCall(req, env) => RecoveryMailsAfterRegisterComplete(s, req, env);
      case RecoverAccountCall(req, env) => RecoveryMailsAfterRecoverAccount(s, req, env);
      case _ => RecoveryMailsAfterStep(s, Apply(s, r), []);
    }
  }

  /** Through any trace, recovery mail only ever goes to existing accounts. */
  lemma {:induction false} RecoveryMailsOnlyToAccounts(s: Server, trace: seq<Request>)
    requires RecoveryMailsToAccounts(s)
    ensures RecoveryMailsToAccounts(Run(s, trace))
    decreases |trace|
  {
    if |trace| > 0 {
      RecoveryMailsStayAddressed(s, trace[0]);
      RecoveryMailsOnlyToAccounts(Apply(s, trace[0]), trace[1..]);
    }
  }
}

=== FILE: handlers_auth.dfy ===
/**
 * The posts behind the login wall (`backend/handlers_auth.rs`): creating a post, and the
 * like/dislike toggle. The post list is the in-memory `POSTS`; its file persistence is not modelled.
 */
module HandlersAuth {
  import opened Wrappers
  import opened Http
  import Input

  /** A post id (a UUID, in canonical form once parsed). */
  type PostId = string

  /** `Post`: `likes` is the one reaction recorded for the post, -1, 0 or 1 in practice. */
  datatype Post = Post(id: PostId, content: string, imagePath: Option<string>, likes: int)

  /** Whether every post's reaction is -1, 0 or 1. */
  predicate ReactionsInRange(posts: seq<Post>) {
    forall i :: 0 <= i < |posts| ==> -1 <= posts[i].likes <= 1
  }

  // ---------------------------------------------------------------------------
  // Reactions
  // ---------------------------------------------------------------------------

  /** The reaction after a "like": a like is withdrawn, anything else becomes a like. */
  function Like(likes: int): (r: int)
    ensures r == 0 <==> likes == 1
    ensures r == 1 <==> likes != 1
  {
    if likes == 1 then 0 else 1
  }

  /** The reaction after a "dislike": a dislike is withdrawn, anything else becomes a dislike. */
  function Dislike(likes: int): (r: int)
    ensures r == 0 <==> likes == -1
    ensures r == -1 <==> likes != -1
  {
    if likes == -1 then 0 else -1
  }

  /** Liking twice from no reaction returns to no reaction; like then dislike is a dislike. */
  lemma ToggleExamples(likes: int)
    ensures Like(Like(0)) == 0
    ensures Dislike(Dislike(0)) == 0
    ensures Dislike(Like(likes)) == -1
    ensures Like(Dislike(likes)) == 1
  {
  }

  /** The position of the first post with id `id`, as `iter_mut().find` locates it. */
  function FirstIndexOf(posts: seq<Post>, id: PostId): (r: Option<nat>)
    ensures r.Some? ==> r.value < |posts| && posts[r.value].id == id
    ensures r.Some? ==> forall j :: 0 <= j < r.value ==> posts[j].id != id
    ensures r.None? ==> forall j :: 0 <= j < |posts| ==> posts[j].id != id
    decreases |posts|
  {
    if |posts| == 0 then None
    else if posts[0].id == id then Some(0)
    else
      match FirstIndexOf(posts[1..], id)
      case None => None
      case Some(k) => Some(k + 1)
  }

  /** The body of a like request; `postId` is `Malformed` when it is a string but not a UUID. */
  datatype LikeRequest = LikeRequest(postId: Field<PostId>, action: Option<string>)

  /** A reply and the post list after the request. */
  datatype PostsStep<T> = PostsStep(reply: Result<T, HttpError>, posts: seq<Post>)

  /**
   * `like_post`: toggles the reaction of the first post with the given id. A missing post is a 404
   * and an unknown action on an existing post a 400; neither changes the list.
   */
  function LikePost(req: LikeRequest, posts: seq<Post>): (st: PostsStep<SuccessStatus>)
    ensures req.postId.Absent? ==> st == PostsStep(Err(HttpError(BadRequest, "Post ID is required")), posts)
    ensures req.postId.Malformed? ==> st == PostsStep(Err(HttpError(BadRequest, "Invalid Post ID")), posts)
    ensures req.postId.Present? && req.action.None? ==>
              st == PostsStep(Err(HttpError(BadRequest, "Action is required")), posts)
    ensures req.postId.Present? && req.action.Some? && FirstIndexOf(posts, req.postId.value).None? ==>
              st == PostsStep(Err(HttpError(NotFound, "Post not found")), posts)
    ensures req.postId.Present? && req.action.Some? && FirstIndexOf(posts, req.postId.value).Some?
            && req.action.value != "like" && req.action.value != "dislike" ==>
              st == PostsStep(Err(HttpError(BadRequest, "Invalid action")), posts)
    // A like or dislike of a post that exists always succeeds.
    ensures (req.postId.Present? && req.action.Some? && FirstIndexOf(posts, req.postId.value).Some?
             && (req.action.value == "like" || req.action.value == "dislike")) ==>
              st.reply == Ok(OK)
    ensures st.reply.Err? ==> st.posts == posts
    ensures |st.posts| == |posts|
    ensures st.reply.Ok? ==>
              && st.reply.value == OK
              && req.postId.Present? && req.action.Some? && FirstIndexOf(posts, req.postId.value).Some?
              && var k := FirstIndexOf(posts, req.postId.value).value;
                 && (req.action.value == "like" ==> st.posts == posts[k := posts[k].(likes := Like(posts[k].likes))])
                 && (req.action.value == "dislike" ==> st.posts == posts[k := posts[k].(likes := Dislike(posts[k].likes))])
                 && (req.action.value == "like" || req.action.value == "dislike")
  {
    match req.postId
    case Absent => PostsStep(Err(HttpError(BadRequest, "Post ID is required")), posts)
    case Malformed => PostsStep(Err(HttpError(BadRequest, "Invalid Post ID")), posts)
    case Present(id) =>
      if req.action.None? then PostsStep(Err(HttpError(BadRequest, "Action is required")), posts)
      else
        match FirstIndexOf(posts, id)
        case None => PostsStep(Err(HttpError(NotFound, "Post not found")), posts)
        case Some(k) =>
          if req.action.value == "like" then
            PostsStep(Ok(OK), posts[k := posts[k].(likes := Like(posts[k].likes))])
          else if req.action.value == "dislike" then
            PostsStep(Ok(OK), posts[k := posts[k].(likes := Dislike(posts[k].likes))])
          else PostsStep(Err(HttpError(BadRequest, "Invalid action")), posts)
  }

  /** Changing a reaction does not move any post: the first index of every id stays where it was. */
  lemma {:induction false} FirstIndexOfIgnoresLikes(posts: seq<Post>, k: nat, likes: int, id: PostId)
    requires k < |posts|
    ensures FirstIndexOf(posts[k := posts[k].(likes := likes)], id) == FirstIndexOf(posts, id)
  {
    var posts' := posts[k := posts[k].(likes := likes)];
    assert forall j :: 0 <= j < |posts| ==> posts'[j].id == posts[j].id;
    match FirstIndexOf(posts, id)
    case None =>
    case Some(i) =>
      assert FirstIndexOf(posts', id).Some?;
      var i' := FirstIndexOf(posts', id).value;
      assert !(i' < i) && !(i < i');
  }

  /** Liking a post without a reaction twice leaves the post list exactly as it was. */
  lemma LikeTwiceRestores(req: LikeRequest, posts: seq<Post>)
    requires req.action == Some("like") && req.postId.Present?
    requires FirstIndexOf(posts, req.postId.value).Some?
    requires posts[FirstIndexOf(posts, req.postId.value).value].likes == 0
    ensures LikePost(req, LikePost(req, posts).posts).posts == posts
  {
  }

  /** Like then dislike leaves the post disliked, whatever its reaction was. */
  lemma LikeThenDislike(like: LikeRequest, dislike: LikeRequest, posts: seq<Post>)
    requires like.action == Some("like") && dislike.action == Some("dislike")
    requires like.postId.Present? && dislike.postId == like.postId
    requires FirstIndexOf(posts, like.postId.value).Some?
    ensures var k := FirstIndexOf(posts, like.postId.value).value;
            LikePost(dislike, LikePost(like, posts).posts).posts[k].likes == -1
  {
  }

  // ---------------------------------------------------------------------------
  // Creating posts
  // ---------------------------------------------------------------------------

  /** The number of bytes of `c` in UTF-8. */
  function Utf8Width(c: char): (n: nat)
    ensures 1 <= n <= 4
    ensures n == 1 <==> c < '\U{80}'
  {
    if c < '\U{80}' then 1 else if c < '\U{800}' then 2 else if c < '\U{10000}' then 3 else 4
  }

  /** `str::len`: the number of bytes of `s` in UTF-8, between one and four per character. */
  function Utf8Length(s: string): (n: nat)
    ensures |s| <= n <= 4 * |s|
    ensures (forall i :: 0 <= i < |s| ==> s[i] < '\U{80}') ==> n == |s|
    decreases |s|
  {
    if |s| == 0 then 0 else Utf8Width(s[0]) + Utf8Length(s[1..])
  }

  /** The text check of `create_post`: between 1 and 200 bytes. */
  predicate ValidPostText(text: string) {
    !(Utf8Length(text) == 0 || Utf8Length(text) > 200)
  }

  /** The byte bound in terms of characters: empty or over 200 characters never fits, up to 50 always does. */
  lemma PostTextBounds(text: string)
    ensures |text| == 0 ==> !ValidPostText(text)
    ensures |text| > 200 ==> !ValidPostText(text)
    ensures 1 <= |text| <= 50 ==> ValidPostText(text)
    ensures (forall i :: 0 <= i < |text| ==> text[i] < '\U{80}') ==> (ValidPostText(text) <==> 1 <= |text| <= 200)
  {
  }

  /** The id of a saved post and the post list after saving it. */
  datatype Saved = Saved(postId: PostId, posts: seq<Post>)

  /** `save_post`: appends one post without a reaction and returns its id. */
  function SavePost(text: string, imagePath: Option<string>, newId: PostId, posts: seq<Post>): (r: Saved)
    ensures r.postId == newId
    ensures |r.posts| == |posts| + 1 && r.posts[..|posts|] == posts
    ensures r.posts[|posts|] == Post(newId, text, imagePath, 0)
  {
    Saved(newId, posts + [Post(newId, text, imagePath, 0)])
  }

  /**
   * One field of the multipart body. `TextPart.text` is `None` when the field's body could not be
   * read as text (the handler then uses the empty string); `FilePart.stored` is where the upload
   * was written, or the reason writing it failed.
   */
  datatype Part =
    | TextPart(text: Option<string>)
    | FilePart(contentType: Input.ContentType, decoded: Option<Input.Dimensions>, byteLen: nat,
               stored: Result<string, string>)
    | OtherPart

  /** The text a text field contributes. */
  function TextOf(p: Part): string
    requires p.TextPart?
  {
    p.text.GetOr("")
  }

  /** Whether some field of `parts` is a text field. */
  predicate HasText(parts: seq<Part>) {
    exists i :: 0 <= i < |parts| && parts[i].TextPart?
  }

  /** The text a field sets when it is a text field. */
  function FieldText(p: Part): Option<string> {
    if p.TextPart? then Some(TextOf(p)) else None
  }

  /** The path a field sets when it is an upload that was written. */
  function StoredPath(p: Part): Option<string> {
    if p.FilePart? && p.stored.Ok? then Some(p.stored.value) else None
  }

  /** The value the LAST field setting one yields under `f`, counted from the end of the body. */
  function LastSet(parts: seq<Part>, f: Part -> Option<string>): Option<string>
    decreases |parts|
  {
    if |parts| == 0 then None
    else f(parts[|parts| - 1]).Or(LastSet(parts[..|parts| - 1], f))
  }

  /** Some field sets a value exactly when one of them yields it. */
  lemma {:induction false} LastSetIsSomeField(parts: seq<Part>, f: Part -> Option<string>)
    ensures LastSet(parts, f).Some? <==> exists i :: 0 <= i < |parts| && f(parts[i]).Some?
    decreases |parts|
  {
    if |parts| > 0 {
      var init := parts[..|parts| - 1];
      LastSetIsSomeField(init, f);
      if f(parts[|parts| - 1]).None? && LastSet(parts, f).None? {
        forall i | 0 <= i < |parts| ensures f(parts[i]).None? {
          if i < |parts| - 1 {
            assert parts[i] == init[i];
          }
        }
      }
    }
  }

  /** Peeling the first field: a later setting wins over the first field's own. */
  lemma {:induction false} LastSetFront(parts: seq<Part>, f: Part -> Option<string>)
    requires |parts| > 0
    ensures LastSet(parts, f) == LastSet(parts[1..], f).Or(f(parts[0]))
    decreases |parts|
  {
    if |parts| > 1 {
      var init := parts[..|parts| - 1];
      LastSetFront(init, f);
      assert init[1..] == parts[1..][..|parts[1..]| - 1];
      assert parts[1..][|parts[1..]| - 1] == parts[|parts| - 1];
      assert init[0] == parts[0];
    } else {
      assert parts[..0] == [];
      assert parts[1..] == [];
    }
  }

  /** Whether one field passes the loop: a valid text, or a valid image that was written. */
  predicate AcceptablePart(p: Part) {
    match p
    case TextPart(_) => ValidPostText(TextOf(p))
    case FilePart(contentType, decoded, byteLen, stored) =>
      Input.ValidateImageFile(contentType, decoded, byteLen).Ok? && stored.Ok?
    case OtherPart => true
  }

  /** The reply the loop sends for a field that does not pass. */
  function PartError(p: Part): HttpError
    requires !AcceptablePart(p)
  {
    match p
    case TextPart(_) => HttpError(BadRequest, "Text must be between 1 and 200 characters")
    case FilePart(contentType, decoded, byteLen, stored) =>
      if Input.ValidateImageFile(contentType, decoded, byteLen).Err? then
        Input.ValidateImageFile(contentType, decoded, byteLen).error
      else HttpError(InternalServerError, stored.error)
  }

  /**
   * The field loop of `create_post`: stops at the first bad text or image field, or at an upload
   * that could not be written; otherwise returns the last text and the last stored upload path.
   */
  function ScanParts(parts: seq<Part>, text: Option<string>, path: Option<string>)
    : (r: Result<(Option<string>, Option<string>), HttpError>)
    ensures r.Ok? <==> forall i :: 0 <= i < |parts| ==> AcceptablePart(parts[i])
    ensures r.Ok? ==> r.value == (LastSet(parts, FieldText).Or(text), LastSet(parts, StoredPath).Or(path))
    decreases |parts|
  {
    if |parts| == 0 then Ok((text, path))
    else
      LastSetFront(parts, FieldText);
      LastSetFront(parts, StoredPath);
      var rest := parts[1..];
      assert forall i :: 0 < i < |parts| ==> parts[i] == rest[i - 1];
      match parts[0]
      case TextPart(_) =>
        var body := TextOf(parts[0]);
        if !ValidPostText(body) then Err(HttpError(BadRequest, "Text must be between 1 and 200 characters"))
        else
          ScanParts(rest, Some(body), path)
      case FilePart(contentType, decoded, byteLen, stored) =>
        (match Input.ValidateImageFile(contentType, decoded, byteLen)
         case Err(e) => Err(e)
         case Ok(_) =>
           match stored
           case Err(message) => Err(HttpError(InternalServerError, message))
           case Ok(p) =>
             ScanParts(rest, text, Some(p)))
      case OtherPart =>
        ScanParts(rest, text, path)
  }

  /** A rejected body is rejected with the error of its first field that does not pass. */
  lemma {:induction false} ScanPartsStopsAtFirstFailure(parts: seq<Part>, text: Option<string>, path: Option<string>)
    requires ScanParts(parts, text, path).Err?
    ensures exists i :: && 0 <= i < |parts| && !AcceptablePart(parts[i])
                        && (forall j :: 0 <= j < i ==> AcceptablePart(parts[j]))
                        && ScanParts(parts, text, path).error == PartError(parts[i])
    decreases |parts|
  {
    var rest := parts[1..];
    if AcceptablePart(parts[0]) {
      var text', path' := if parts[0].TextPart? then Some(TextOf(parts[0])) else text,
                          if parts[0].FilePart? then Some(parts[0].stored.value) else path;
      assert ScanParts(parts, text, path) == ScanParts(rest, text', path');
      ScanPartsStopsAtFirstFailure(rest, text', path');
      var k :| && 0 <= k < |rest| && !AcceptablePart(rest[k])
               && (forall j :: 0 <= j < k ==> AcceptablePart(rest[j]))
               && ScanParts(rest, text', path').error == PartError(rest[k]);
      assert forall j :: 0 < j <= k ==> parts[j] == rest[j - 1];
      assert parts[k + 1] == rest[k];
    }
  }

  /**
   * `create_post`: a post is saved exactly when every field passes and at least one text field
   * was sent; it holds the last text field and the last stored upload path.
   */
  function CreatePost(parts: seq<Part>, newId: PostId, posts: seq<Post>): (st: PostsStep<PostId>)
    ensures st.reply.Ok? <==> HasText(parts) && forall i :: 0 <= i < |parts| ==> AcceptablePart(parts[i])
    ensures st.reply.Err? ==> st.posts == posts
    // A field that fails is answered with its own error (`ScanPartsStopsAtFirstFailure`).
    ensures ScanParts(parts, None, None).Err? ==> st.reply == Err(ScanParts(parts, None, None).error)
    ensures !HasText(parts) && (forall i :: 0 <= i < |parts| ==> AcceptablePart(parts[i])) ==>
              st.reply == Err(HttpError(BadRequest, "Text content is required"))
    ensures st.reply.Ok? ==>
              && st.reply.value == newId
              && LastSet(parts, FieldText).Some?
              && st.posts == posts + [Post(newId, LastSet(parts, FieldText).value, LastSet(parts, StoredPath), 0)]
              && ValidPostText(st.posts[|posts|].content)
  {
    LastSetIsSomeField(parts, FieldText);
    assert HasText(parts) <==> exists i :: 0 <= i < |parts| && FieldText(parts[i]).Some?;
    match ScanParts(parts, None, None)
    case Err(e) => PostsStep(Err(e), posts)
    case Ok((None, _)) => PostsStep(Err(HttpError(BadRequest, "Text content is required")), posts)
    case Ok((Some(text), path)) =>
      LastTextIsValid(parts);
      var saved := SavePost(text, path, newId, posts);
      PostsStep(Ok(saved.postId), saved.posts)
  }

  /** When every field passes, the last text set is a valid post text. */
  lemma {:induction false} LastTextIsValid(parts: seq<Part>)
    requires forall i :: 0 <= i < |parts| ==> AcceptablePart(parts[i])
    ensures LastSet(parts, FieldText).Some? ==> ValidPostText(LastSet(parts, FieldText).value)
    decreases |parts|
  {
    if |parts| > 0 {
      LastTextIsValid(parts[..|parts| - 1]);
      assert AcceptablePart(parts[|parts| - 1]);
    }
  }

  /** One state-changing request on the post list. */
  datatype PostRequest = LikeCall(like: LikeRequest) | CreateCall(parts: seq<Part>, newId: PostId)

  /** The post list after the requests of `trace`, one after the other. */
  function RunPosts(posts: seq<Post>, trace: seq<PostRequest>): seq<Post>
    decreases |trace|
  {
    if |trace| == 0 then posts
    else
      var next := match trace[0]
        case LikeCall(req) => LikePost(req, posts).posts
        case CreateCall(parts, id) => CreatePost(parts, id, posts).posts;
      RunPosts(next, trace[1..])
  }

  /** New posts start without a reaction and toggles only produce -1, 0 or 1, so reactions stay in range. */
  lemma {:induction false} ReactionsStayInRange(posts: seq<Post>, trace: seq<PostRequest>)
    requires ReactionsInRange(posts)
    ensures ReactionsInRange(RunPosts(posts, trace))
    decreases |trace|
  {
    if |trace| > 0 {
      var next := match trace[0]
        case LikeCall(req) => LikePost(req, posts).posts
        case CreateCall(parts, id) => CreatePost(parts, id, posts).posts;
      match trace[0] {
        case LikeCall(req) =>
        case CreateCall(parts, id) =>
          var st := CreatePost(parts, id, posts);
          if st.reply.Ok? {
            assert st.posts == st.posts[..|posts|] + [st.posts[|posts|]];
          }
      }
      assert ReactionsInRange(next);
      ReactionsStayInRange(next, trace[1..]);
    }
  }
}

=== FILE: handlers_unauth.dfy ===
/**
 * The routes reachable without a session (`backend/handlers_unauth.rs`): the two-phase passkey
 * ceremonies and the token routes. Each handler is one atomic step from a request, the
 * request's environment and the server state to a reply and the next server state.
 */
module HandlersUnauth {
  import opened Wrappers
  import opened Http
  import opened Passkeys
  import opened UserStore
  import opened WebAuthn
  import Input

  /** The opaque id a client presents to complete a ceremony. */
  type StateId = string

  /** A single-use token of the token service. */
  type Token = string

  /** `TimedStoredState`: the library state of a login ceremony and the challenge issued with it. */
  datatype TimedStoredState = TimedStoredState(state: PasskeyAuthentication, serverChallenge: string)

  /** A mail accepted by the mail service. */
  datatype Mail = Mail(to: Email, subject: string, link: string)

  /**
   * The state the handlers share: the ceremony maps `REGISTRATION_STATES` and
   * `AUTHENTICATION_STATES`, the passkey cache, the user database, and the mail sent so far.
   */
  datatype Server = Server(
    registrations: map<StateId, StoredRegistrationState>,
    authentications: map<StateId, TimedStoredState>,
    cache: Cache,
    users: Users,
    outbox: seq<Mail>)

  /** Failures the user database injects into one request, one per call site. */
  datatype Faults = Faults(
    existsFault: Option<DbError>,       // user::exists
    createFault: Option<DbError>,       // user::create
    resetStoreFault: Option<DbError>,   // set_passkey in register_complete's reset branch
    storeFault: Option<DbError>,        // set_passkey in complete_registration
    loadFault: Option<DbError>,         // get_passkey in begin_authentication
    verifyFault: Option<DbError>)       // user::verify

  /** What one request learns from outside the model: oracles, random values and collaborator outcomes. */
  datatype Env = Env(
    isValidEmail: string -> bool,       // the validator crate's email syntax check
    lib: Library,
    newStateId: StateId,                // uuid of a new ceremony state
    newUserHandle: string,              // uuid of the user handle in a registration challenge
    faults: Faults,
    generated: Result<Token, DbError>,  // token::generate
    consumed: Result<Email, DbError>,   // token::consume of the token in the path
    mailDelivered: bool,                // send_mail
    rendered: bool)                     // the recovery page template renders

  /** A handler's reply: a value, an error response, or a panic of the request's task. */
  datatype Reply<T> = Done(value: T) | Fail(error: HttpError) | Panicked(message: string)

  /** A reply and the server state after the request. */
  datatype Step<T> = Step(reply: Reply<T>, next: Server)

  /** An error reply that leaves the server as it was. */
  function Rejected<T>(status: StatusCode, message: string, s: Server): Step<T> {
    Step(Fail(HttpError(status, message)), s)
  }

  /** A started ceremony: the `publicKey` object and the state id the client must send back. */
  datatype Started = Started(publicKey: PublicKeyOptions, stateId: StateId)

  // Request bodies; a string or boolean field that is absent or of another JSON type is `None`.
  datatype RegisterBeginRequest = RegisterBeginRequest(email: Option<string>, resetMode: Option<bool>)
  datatype RegisterCompleteRequest = RegisterCompleteRequest(
    email: Option<string>, resetMode: Option<bool>, firstName: Option<string>, lastName: Option<string>,
    stateId: Option<StateId>, response: Field<RegisterPublicKeyCredential>)
  datatype LoginBeginRequest = LoginBeginRequest(email: Option<string>)
  datatype LoginCompleteRequest = LoginCompleteRequest(stateId: Option<StateId>, response: Field<PublicKeyCredential>)
  datatype RecoverRequest = RecoverRequest(email: Option<string>)

  // ---------------------------------------------------------------------------
  // Registration
  // ---------------------------------------------------------------------------

  /** The decision table of `register_begin` on (reset mode, user exists). */
  function BeginGate(resetMode: bool, known: Result<bool, DbError>): (proceed: bool)
    ensures proceed <==> known.Ok? && (resetMode || !known.value)
  {
    match (resetMode, known)
    case (false, Ok(false)) => true
    case (true, Ok(true)) => true
    case (true, Ok(false)) => true
    case _ => false
  }

  /** The branches of `register_complete` on (reset mode, user exists). */
  datatype CompletionPath = CreateAccount | ReplacePasskey | Refuse

  /** The decision table of `register_complete`: unlike the one at begin, it refuses a reset for an unknown user. */
  function CompleteGate(resetMode: bool, known: Result<bool, DbError>): (path: CompletionPath)
    ensures path == CreateAccount <==> !resetMode && known == Ok(false)
    ensures path == ReplacePasskey <==> resetMode && known == Ok(true)
  {
    match (resetMode, known)
    case (false, Ok(false)) => CreateAccount
    case (true, Ok(true)) => ReplacePasskey
    case _ => Refuse
  }

  /**
   * `register_begin`: after the email checks and the gate, asks the library for a challenge (with
   * the email as name and display name), records the ceremony under a new id and drops the email's
   * cached passkey.
   */
  function RegisterBegin(req: RegisterBeginRequest, env: Env, s: Server): (st: Step<Started>)
    ensures req.email.None? ==> st == Rejected(BadRequest, "Email is required", s)
    ensures req.email.Some? && !env.isValidEmail(req.email.value) ==>
              st == Rejected(BadRequest, "Invalid email format", s)
    ensures req.email.Some? && env.isValidEmail(req.email.value)
            && !BeginGate(req.resetMode.GetOr(false), Exists(s.users, req.email.value, env.faults.existsFault)) ==>
              st == Rejected(BadRequest, "Invalid registration request", s)
    ensures st.reply.Done? <==>
              && req.email.Some? && env.isValidEmail(req.email.value)
              && BeginGate(req.resetMode.GetOr(false), Exists(s.users, req.email.value, env.faults.existsFault))
              && env.lib.startRegistration(env.newUserHandle, req.email.value, req.email.value).Some?
    ensures !st.reply.Done? ==> st.next == s && st.reply.Fail? && st.reply.error.status == BadRequest
    ensures st.reply.Done? ==>
              && st.reply.value.stateId == env.newStateId
              && st.next.registrations.Keys == s.registrations.Keys + {env.newStateId}
              && Some((st.reply.value.publicKey, st.next.registrations[env.newStateId].registrationState))
                 == env.lib.startRegistration(env.newUserHandle, req.email.value, req.email.value)
              && st.next.registrations[env.newStateId].challenge == st.reply.value.publicKey.challenge
              && (forall id :: id in s.registrations && id != env.newStateId ==>
                                 st.next.registrations[id] == s.registrations[id])
              && st.next.cache == s.cache - {req.email.value}
              && st.next.authentications == s.authentications
              && st.next.users == s.users
              && st.next.outbox == s.outbox
    ensures st.reply.Done? && env.newStateId !in s.registrations ==>
              |st.next.registrations| == |s.registrations| + 1
  {
    if req.email.None? then Rejected(BadRequest, "Email is required", s)
    else
      var email := req.email.value;
      if !env.isValidEmail(email) then Rejected(BadRequest, "Invalid email format", s)
      else if !BeginGate(req.resetMode.GetOr(false), Exists(s.users, email, env.faults.existsFault)) then
        Rejected(BadRequest, "Invalid registration request", s)
      else
        match BeginRegistration(env.lib, env.newUserHandle, email, email)
        case Err(message) => Rejected(BadRequest, message, s)
        case Ok((publicKey, registration)) =>
          var stored := StoredRegistrationState(registration, publicKey.challenge);
          Step(Done(Started(publicKey, env.newStateId)),
               s.(registrations := s.registrations[env.newStateId := stored], cache := s.cache - {email}))
  }

  /** Whether a completion request passes every field check, in the order the handler makes them. */
  predicate WellFormed(req: RegisterCompleteRequest, env: Env) {
    && req.email.Some? && env.isValidEmail(req.email.value)
    && req.firstName.Some? && req.lastName.Some?
    && Input.IsValidDisplayName(req.firstName.value) && Input.IsValidDisplayName(req.lastName.value)
    && req.stateId.Some?
    && req.response.Present?
  }

  /** The branch `register_complete` takes on (reset mode, user exists) for a well-formed request. */
  function PathOf(req: RegisterCompleteRequest, env: Env, s: Server): CompletionPath
    requires WellFormed(req, env)
  {
    CompleteGate(req.resetMode.GetOr(false), Exists(s.users, req.email.value, env.faults.existsFault))
  }

  /** Whether a completion request gets through its branch to the lookup of its ceremony state. */
  predicate ReachesStateLookup(req: RegisterCompleteRequest, env: Env, s: Server) {
    && WellFormed(req, env)
    && match PathOf(req, env, s)
       case CreateAccount => env.faults.createFault.None?
       case ReplacePasskey => req.email.value in s.cache && env.faults.resetStoreFault.None?
       case Refuse => false
  }

  /** The verification mail of a new account: only when a token was generated and the mail service accepted it. */
  function SendVerificationMail(email: Email, env: Env, s: Server): (s': Server)
    ensures env.generated.Ok? && env.mailDelivered ==>
              s' == s.(outbox := s.outbox + [Mail(email, VerificationSubject,
                                                  "http://localhost:8080/validate/" + env.generated.value)])
    ensures !(env.generated.Ok? && env.mailDelivered) ==> s' == s
  {
    match env.generated
    case Err(_) => s
    case Ok(token) =>
      if env.mailDelivered then
        s.(outbox := s.outbox + [Mail(email, VerificationSubject, "http://localhost:8080/validate/" + token)])
      else s
  }

  /** The part of `register_complete` after its branch: consume the ceremony state, verify, mail. */
  function FinishRegistration(email: Email, stateId: StateId, response: RegisterPublicKeyCredential, env: Env, s: Server)
    : (st: Step<SuccessStatus>)
    ensures stateId !in s.registrations ==> st == Rejected(BadRequest, "Invalid registration session", s)
    ensures stateId in s.registrations ==> st.next.registrations == s.registrations - {stateId}
    ensures st.reply.Done? <==>
              && stateId in s.registrations && email in s.users && env.faults.storeFault.None?
              && env.lib.finishRegistration(response, s.registrations[stateId].registrationState).Some?
    ensures !st.reply.Done? ==> st.reply.Fail? && st.reply.error.status == BadRequest
    ensures st.reply.Done? ==>
              && st.reply.value == Created
              && st.next.cache
                 == s.cache[email := env.lib.finishRegistration(response, s.registrations[stateId].registrationState).value]
              && st.next.users == s.users[email := s.users[email].(passkey := Some(st.next.cache[email]))]
    ensures !st.reply.Done? ==> st.next.users == s.users
    // Success sends the verification mail exactly when a token was generated and delivered.
    ensures st.reply.Done? && env.generated.Ok? && env.mailDelivered ==>
            st.next.outbox == s.outbox + [Mail(email, VerificationSubject,
                                                "http://localhost:8080/validate/" + env.generated.value)]
    ensures st.reply.Done? && !(env.generated.Ok? && env.mailDelivered) ==> st.next.outbox == s.outbox
    ensures st.next.cache.Keys <= s.cache.Keys + {email}
    ensures stateId !in s.registrations ==> st.next.cache == s.cache
    // A refused attestation leaves the cache alone; an accepted one is cached even if the store fails.
    ensures stateId in s.registrations
            && env.lib.finishRegistration(response, s.registrations[stateId].registrationState).None? ==>
              st.next.cache == s.cache
    ensures stateId in s.registrations
            && env.lib.finishRegistration(response, s.registrations[stateId].registrationState).Some? ==>
              st.next.cache
              == s.cache[email := env.lib.finishRegistration(response, s.registrations[stateId].registrationState).value]
    ensures st.next.outbox == s.outbox
            || (&& st.reply.Done? && env.generated.Ok? && env.mailDelivered
                && st.next.outbox == s.outbox + [Mail(email, VerificationSubject,
                                                      "http://localhost:8080/validate/" + env.generated.value)])
    ensures st.next.authentications == s.authentications
  {
    if stateId !in s.registrations then Rejected(BadRequest, "Invalid registration session", s)
    else
      var stored := s.registrations[stateId];
      var s1 := s.(registrations := s.registrations - {stateId});
      var out := CompleteRegistration(env.lib, email, response, stored, s1.cache, s1.users, env.faults.storeFault);
      var s2 := s1.(cache := out.cache, users := out.users);
      match out.result
      case Err(message) => Rejected(BadRequest, message, s2)
      case Ok(_) => Step(Done(Created), SendVerificationMail(email, env, s2))
  }

  /**
   * The message of the first field check a malformed completion request fails, in the handler's
   * order: email present, email format, first and last name present, first and last name valid,
   * state id present, response present, response parsable.
   */
  function FieldError(req: RegisterCompleteRequest, env: Env): (message: string)
    requires !WellFormed(req, env)
    ensures req.email.None? ==> message == "Email is required"
    ensures req.email.Some? && !env.isValidEmail(req.email.value) ==> message == "Invalid email format"
    ensures req.email.Some? && env.isValidEmail(req.email.value) && req.firstName.None? ==>
              message == "First name is required"
    ensures req.email.Some? && env.isValidEmail(req.email.value) && req.firstName.Some? && req.lastName.Some?
            && Input.IsValidDisplayName(req.firstName.value) && Input.IsValidDisplayName(req.lastName.value)
            && req.stateId.Some? && req.response.Malformed? ==>
              message == "Invalid response format"
  {
    if req.email.None? then "Email is required"
    else if !env.isValidEmail(req.email.value) then "Invalid email format"
    else if req.firstName.None? then "First name is required"
    else if req.lastName.None? then "Last name is required"
    else if !Input.IsValidDisplayName(req.firstName.value) then "Invalid first name"
    else if !Input.IsValidDisplayName(req.lastName.value) then "Invalid last name"
    else if req.stateId.None? then "State ID is required"
    else if req.response.Absent? then "Response is required"
    else "Invalid response format"
  }

  /**
   * How `register_complete` answers: field errors and branch refusals, the panic of the reset
   * branch, the database 500s, the 400s after the state lookup, and when it succeeds.
   */
  predicate CompletionReplies(req: RegisterCompleteRequest, env: Env, s: Server, st: Step<SuccessStatus>) {
    // Field errors are 400s that change nothing.
    && (!WellFormed(req, env) ==> st.reply.Fail? && st.reply.error.status == BadRequest && st.next == s)
    && (req.email.None? ==> st == Rejected(BadRequest, "Email is required", s))
    // Combinations other than (false, Ok(false)) and (true, Ok(true)): 500 before any state is touched.
    && (WellFormed(req, env) && PathOf(req, env, s) == Refuse ==>
          st == Rejected(InternalServerError, "Failed to check user existence", s))
    // The reset branch unwraps a cache entry that may be missing.
    && (WellFormed(req, env) && PathOf(req, env, s) == ReplacePasskey && req.email.value !in s.cache ==>
          st == Step(Panicked("called `Option::unwrap()` on a `None` value"), s))
    && (st.reply.Panicked? ==> st.next == s)
    // Database failures in the branch are 500s that change nothing.
    && (WellFormed(req, env) && PathOf(req, env, s) == CreateAccount && env.faults.createFault.Some? ==>
          st == Rejected(InternalServerError, "Failed to create user", s))
    && (WellFormed(req, env) && PathOf(req, env, s) == ReplacePasskey && req.email.value in s.cache
        && env.faults.resetStoreFault.Some? ==>
          st == Rejected(InternalServerError, env.faults.resetStoreFault.value.message, s))
    // Past the branch: an unknown id and any verification or store failure are 400s.
    && (ReachesStateLookup(req, env, s) && req.stateId.value !in s.registrations ==>
          st.reply == Fail(HttpError(BadRequest, "Invalid registration session")))
    && (ReachesStateLookup(req, env, s) && !st.reply.Done? ==> st.reply.Fail? && st.reply.error.status == BadRequest)
    // Success: verification passed and the store write succeeded.
    && (st.reply.Done? <==>
          && ReachesStateLookup(req, env, s) && req.stateId.value in s.registrations
          && env.lib.finishRegistration(req.response.value, s.registrations[req.stateId.value].registrationState).Some?
          && env.faults.storeFault.None?)
    && (st.reply.Done? ==> st.reply.value == Created)
  }

  /**
   * What `register_complete` does to the user records: only the new-account branch adds one, only
   * the request's own record changes, and no record becomes verified.
   */
  predicate CompletionAccounts(req: RegisterCompleteRequest, env: Env, s: Server, st: Step<SuccessStatus>) {
    && s.users.Keys <= st.next.users.Keys
    && (st.next.users.Keys != s.users.Keys ==>
          WellFormed(req, env) && PathOf(req, env, s) == CreateAccount
          && st.next.users.Keys == s.users.Keys + {req.email.value})
    // The user is created before the state lookup, so it survives an unknown state id.
    && (ReachesStateLookup(req, env, s) && PathOf(req, env, s) == CreateAccount ==> req.email.value in st.next.users)
    // Past the branch a failure leaves the record as the branch wrote it.
    && (ReachesStateLookup(req, env, s) && !st.reply.Done? && PathOf(req, env, s) == CreateAccount ==>
          st.next.users[req.email.value] == User(req.firstName.value, req.lastName.value, None, false))
    && (ReachesStateLookup(req, env, s) && !st.reply.Done? && PathOf(req, env, s) == ReplacePasskey ==>
          st.next.users[req.email.value] == s.users[req.email.value].(passkey := Some(s.cache[req.email.value])))
    // Success stores the verified passkey in the record and nothing else changes in it.
    && (st.reply.Done? && WellFormed(req, env) && PathOf(req, env, s) == CreateAccount ==>
          && req.email.value in st.next.users && req.email.value in st.next.cache
          && st.next.users[req.email.value]
             == User(req.firstName.value, req.lastName.value, Some(st.next.cache[req.email.value]), false))
    && (st.reply.Done? && WellFormed(req, env) && PathOf(req, env, s) == ReplacePasskey ==>
          && req.email.value in st.next.users && req.email.value in st.next.cache
          && st.next.users[req.email.value]
             == s.users[req.email.value].(passkey := Some(st.next.cache[req.email.value])))
    // Other accounts are left alone, and no account becomes verified.
    && (forall e :: e in s.users && (req.email.None? || e != req.email.value) ==> st.next.users[e] == s.users[e])
    && (forall e :: e in st.next.users && st.next.users[e].verified ==> e in s.users && s.users[e].verified)
  }

  /**
   * What `register_complete` does to the ceremony states, the passkey cache and the outbox: the
   * state is consumed once looked up, the cache learns the verified passkey once the library
   * accepts it, and the verification mail goes out on success when a token and delivery succeed.
   */
  predicate CompletionCeremonyState(req: RegisterCompleteRequest, env: Env, s: Server, st: Step<SuccessStatus>) {
    && (!ReachesStateLookup(req, env, s) ==> st.next.registrations == s.registrations && st.next.cache == s.cache)
    && (ReachesStateLookup(req, env, s) && req.stateId.value !in s.registrations ==>
          st.next.registrations == s.registrations && st.next.cache == s.cache)
    && (ReachesStateLookup(req, env, s) && req.stateId.value in s.registrations ==>
          && st.next.registrations == s.registrations - {req.stateId.value}
          && var verified := env.lib.finishRegistration(req.response.value,
                                                        s.registrations[req.stateId.value].registrationState);
             && (verified.None? ==> st.next.cache == s.cache)
             && (verified.Some? ==> st.next.cache == s.cache[req.email.value := verified.value]))
    && (st.reply.Done? && WellFormed(req, env) && env.generated.Ok? && env.mailDelivered ==>
          st.next.outbox == s.outbox + [Mail(req.email.value, VerificationSubject,
                                             "http://localhost:8080/validate/" + env.generated.value)])
    && (!(st.reply.Done? && WellFormed(req, env) && env.generated.Ok? && env.mailDelivered) ==> st.next.outbox == s.outbox)
    && st.next.authentications == s.authentications
  }

  /** `register_complete` past its field checks: the branch, then the ceremony. */
  function CheckedCompletion(req: RegisterCompleteRequest, env: Env, s: Server): Step<SuccessStatus>
    requires WellFormed(req, env)
  {
    var email := req.email.value;
    match PathOf(req, env, s)
    case Refuse => Rejected(InternalServerError, "Failed to check user existence", s)
    case CreateAccount =>
      (match Create(s.users, email, req.firstName.value, req.lastName.value, env.faults.createFault)
       case Err(_) => Rejected(InternalServerError, "Failed to create user", s)
       case Ok(users) => FinishRegistration(email, req.stateId.value, req.response.value, env, s.(users := users)))
    case ReplacePasskey =>
      if email !in s.cache then Step(Panicked("called `Option::unwrap()` on a `None` value"), s)
      else
        match SetPasskey(s.users, email, s.cache[email], env.faults.resetStoreFault)
        case Err(e) => Rejected(InternalServerError, e.message, s)
        case Ok(users) => FinishRegistration(email, req.stateId.value, req.response.value, env, s.(users := users))
  }

  lemma CheckedCompletionReplies(req: RegisterCompleteRequest, env: Env, s: Server)
    requires WellFormed(req, env)
    ensures CompletionReplies(req, env, s, CheckedCompletion(req, env, s))
  {
  }

  lemma CheckedCompletionAccounts(req: RegisterCompleteRequest, env: Env, s: Server)
    requires WellFormed(req, env)
    ensures CompletionAccounts(req, env, s, CheckedCompletion(req, env, s))
  {
    match PathOf(req, env, s) {
      case Refuse =>
      case CreateAccount => CreatedAccount(req, env, s);
      case ReplacePasskey => ReplacedAccount(req, env, s);
    }
  }

  /** The new-account branch creates exactly the request's account and touches no other. */
  lemma CreatedAccount(req: RegisterCompleteRequest, env: Env, s: Server)
    requires WellFormed(req, env) && PathOf(req, env, s) == CreateAccount
    ensures CompletionAccounts(req, env, s, CheckedCompletion(req, env, s))
  {
  }

  /** The reset branch changes only the passkey of the request's existing account. */
  lemma ReplacedAccount(req: RegisterCompleteRequest, env: Env, s: Server)
    requires WellFormed(req, env) && PathOf(req, env, s) == ReplacePasskey
    ensures CompletionAccounts(req, env, s, CheckedCompletion(req, env, s))
  {
  }

  lemma CheckedCompletionCeremonyState(req: RegisterCompleteRequest, env: Env, s: Server)
    requires WellFormed(req, env)
    ensures CompletionCeremonyState(req, env, s, CheckedCompletion(req, env, s))
  {
    match PathOf(req, env, s) {
      case Refuse =>
      case CreateAccount => CreatedCeremonyState(req, env, s);
      case ReplacePasskey => ReplacedCeremonyState(req, env, s);
    }
  }

  /** The ceremony state, cache and outbox after the new-account branch. */
  lemma CreatedCeremonyState(req: RegisterCompleteRequest, env: Env, s: Server)
    requires WellFormed(req, env) && PathOf(req, env, s) == CreateAccount
    ensures CompletionCeremonyState(req, env, s, CheckedCompletion(req, env, s))
  {
  }

  /** The ceremony state, cache and outbox after the reset branch. */
  lemma ReplacedCeremonyState(req: RegisterCompleteRequest, env: Env, s: Server)
    requires WellFormed(req, env) && PathOf(req, env, s) == ReplacePasskey
    ensures CompletionCeremonyState(req, env, s, CheckedCompletion(req, env, s))
  {
  }

  /**
   * `register_complete`: field checks, then the branch on (reset mode, user exists) — which creates
   * the user, or copies the cached passkey to the store — and only then the one-time lookup of the
   * ceremony state and the library's verification.
   */
  function RegisterComplete(req: RegisterCompleteRequest, env: Env, s: Server): (st: Step<SuccessStatus>)
    ensures CompletionReplies(req, env, s, st)
    ensures CompletionAccounts(req, env, s, st)
    ensures CompletionCeremonyState(req, env, s, st)
  {
    if !WellFormed(req, env) then Rejected(BadRequest, FieldError(req, env), s)
    else
      CheckedCompletionReplies(req, env, s);
      CheckedCompletionAccounts(req, env, s);
      CheckedCompletionCeremonyState(req, env, s);
      CheckedCompletion(req, env, s)
  }

  // ---------------------------------------------------------------------------
  // Authentication
  // ---------------------------------------------------------------------------

  /** `login_begin`: after the email checks, starts an authentication and records it under a new id. */
  function LoginBegin(req: LoginBeginRequest, env: Env, s: Server): (st: Step<Started>)
    ensures req.email.None? ==> st == Rejected(BadRequest, "Email is required", s)
    ensures req.email.Some? && !env.isValidEmail(req.email.value) ==>
              st == Rejected(BadRequest, "Invalid email format", s)
    ensures req.email.Some? && env.isValidEmail(req.email.value)
            && BeginAuthentication(env.lib, req.email.value, s.cache, s.users, env.faults.loadFault).Err? ==>
              st == Rejected(BadRequest,
                BeginAuthentication(env.lib, req.email.value, s.cache, s.users, env.faults.loadFault).error, s)
    ensures st.reply.Done? <==>
              req.email.Some? && env.isValidEmail(req.email.value)
              && BeginAuthentication(env.lib, req.email.value, s.cache, s.users, env.faults.loadFault).Ok?
    ensures !st.reply.Done? ==> st.next == s && st.reply.Fail?
    ensures st.reply.Done? ==>
              var (publicKey, authentication) :=
                BeginAuthentication(env.lib, req.email.value, s.cache, s.users, env.faults.loadFault).value;
              && st.reply.value == Started(publicKey, env.newStateId)
              && st.next == s.(authentications :=
                   s.authentications[env.newStateId := TimedStoredState(authentication, publicKey.challenge)])
  {
    if req.email.None? then Rejected(BadRequest, "Email is required", s)
    else
      var email := req.email.value;
      if !env.isValidEmail(email) then Rejected(BadRequest, "Invalid email format", s)
      else
        match BeginAuthentication(env.lib, email, s.cache, s.users, env.faults.loadFault)
        case Err(message) => Rejected(BadRequest, message, s)
        case Ok((publicKey, authentication)) =>
          Step(Done(Started(publicKey, env.newStateId)),
               s.(authentications :=
                    s.authentications[env.newStateId := TimedStoredState(authentication, publicKey.challenge)]))
  }

  /**
   * `login_complete`: removes the ceremony state before verifying, so a state is used at most once;
   * a failed verification is a 401 and the state stays removed.
   */
  function LoginComplete(req: LoginCompleteRequest, env: Env, s: Server): (st: Step<Redirect>)
    ensures req.response.Absent? ==> st == Rejected(BadRequest, "Response is required", s)
    ensures !req.response.Absent? && req.stateId.None? ==> st == Rejected(BadRequest, "State ID is required", s)
    ensures req.response.Malformed? && req.stateId.Some? ==> st == Rejected(BadRequest, "Invalid response format", s)
    ensures req.response.Present? && req.stateId.Some? && req.stateId.value !in s.authentications ==>
              st == Rejected(BadRequest, "Invalid or expired authentication state", s)
    ensures req.response.Present? && req.stateId.Some? && req.stateId.value in s.authentications ==>
              && st.next == s.(authentications := s.authentications - {req.stateId.value})
              && (st.reply == Done(Redirect("/home")) <==>
                    env.lib.finishAuthentication(req.response.value, s.authentications[req.stateId.value].state))
              && (!st.reply.Done? ==> st.reply == Fail(HttpError(Unauthorized, "Failed to finish authentication")))
    ensures st.next.registrations == s.registrations && st.next.cache == s.cache && st.next.users == s.users
    ensures st.next.outbox == s.outbox
  {
    if req.response.Absent? then Rejected(BadRequest, "Response is required", s)
    else if req.stateId.None? then Rejected(BadRequest, "State ID is required", s)
    else if req.response.Malformed? then Rejected(BadRequest, "Invalid response format", s)
    else
      var id := req.stateId.value;
      if id !in s.authentications then Rejected(BadRequest, "Invalid or expired authentication state", s)
      else
        var stored := s.authentications[id];
        var s1 := s.(authentications := s.authentications - {id});
        match CompleteAuthentication(env.lib, req.response.value, stored.state, stored.serverChallenge)
        case Err(message) => Rejected(Unauthorized, message, s1)
        case Ok(_) => Step(Done(Redirect("/home")), s1)
  }

  // ---------------------------------------------------------------------------
  // Tokens
  // ---------------------------------------------------------------------------

  /** `validate_account`: consume the token, then mark its email verified; every outcome is a redirect. */
  function ValidateAccount(env: Env, s: Server): (st: Step<Redirect>)
    ensures st.reply == Done(Redirect("/login?validated=true")) <==>
              env.consumed.Ok? && Verify(s.users, env.consumed.value, env.faults.verifyFault).Ok?
    ensures st.reply == Done(Redirect("/register?error=validation_failed")) <==>
              env.consumed.Ok? && Verify(s.users, env.consumed.value, env.faults.verifyFault).Err?
    ensures st.reply == Done(Redirect("/register?error=invalid_token")) <==> env.consumed.Err?
    ensures st.reply == Done(Redirect("/login?validated=true")) ==>
              st.next == s.(users := s.users[env.consumed.value := s.users[env.consumed.value].(verified := true)])
    ensures st.reply != Done(Redirect("/login?validated=true")) ==> st.next == s
  {
    match env.consumed
    case Err(_) => Step(Done(Redirect("/register?error=invalid_token")), s)
    case Ok(email) =>
      match Verify(s.users, email, env.faults.verifyFault)
      case Ok(users) => Step(Done(Redirect("/login?validated=true")), s.(users := users))
      case Err(_) => Step(Done(Redirect("/register?error=validation_failed")), s)
  }

  /** The page `reset_account` answers with: an immediate client-side redirect to `url`. */
  function RefreshPage(url: string): string {
    "<meta http-equiv='refresh' content='0;url=" + url + "'/>"
  }

  /**
   * `reset_account`: a consumed token sends the client to the reset-mode registration page for the
   * token's email, any token failure to the recovery error page.
   */
  function ResetAccount(consumed: Result<Email, DbError>): (page: string)
    ensures consumed.Ok? ==> page == RefreshPage("/register?reset_mode=true&email=" + consumed.value + "&success=true")
    ensures consumed.Err? ==> page == RefreshPage("/register?error=recovery_failed")
  {
    match consumed
    case Ok(email) => RefreshPage("/register?reset_mode=true&email=" + email + "&success=true")
    case Err(_) => RefreshPage("/register?error=recovery_failed")
  }

  /** The subject of a recovery mail ("Récupération de compte"). */
  const RecoverySubject := "R\U{E9}cup\U{E9}ration de compte"

  /** The subject of a verification mail. */
  const VerificationSubject := "Verifier votre compte"

  /** The recovery page; `noticeShown` is whether it carries the "a recovery mail was sent" notice. */
  datatype RecoverPage = RecoverPage(noticeShown: bool)

  /** The recovery page, or a 500 when the template fails to render. */
  function RenderRecoverPage(noticeShown: bool, env: Env, s: Server): Step<RecoverPage> {
    if env.rendered then Step(Done(RecoverPage(noticeShown)), s)
    else Rejected(InternalServerError, "Internal server error.", s)
  }

  /**
   * `recover_account`: for a known email, generate a token and mail a recovery link — a mail
   * failure is a 500 here — then render the page. The email's syntax is not checked.
   */
  function RecoverAccount(req: RecoverRequest, env: Env, s: Server): (st: Step<RecoverPage>)
    ensures req.email.None? ==> st == Rejected(BadRequest, "Email is required", s)
    ensures req.email.Some? && env.faults.existsFault.Some? ==>
              st == Rejected(InternalServerError, "Something went wrong", s)
    ensures req.email.Some? && env.faults.existsFault.None? && req.email.value in s.users && env.generated.Err? ==>
              st == Rejected(InternalServerError, "Failed to generate token", s)
    ensures req.email.Some? && env.faults.existsFault.None? && req.email.value in s.users && env.generated.Ok?
            && !env.mailDelivered ==>
              st == Rejected(InternalServerError, "Failed to send email", s)
    ensures st.reply.Done? ==> (st.reply.value.noticeShown <==> req.email.value in s.users)
    ensures st.reply.Done? <==>
              req.email.Some? && env.faults.existsFault.None? && env.rendered
              && (req.email.value in s.users ==> env.generated.Ok? && env.mailDelivered)
    // The recovery mail is recorded exactly when it was sent: a known email, a token, a delivered mail.
    ensures req.email.Some? && env.faults.existsFault.None? && req.email.value in s.users
            && env.generated.Ok? && env.mailDelivered ==>
              st.next == s.(outbox := s.outbox + [Mail(req.email.value, RecoverySubject,
                                                      "http://localhost:8080/recover/" + env.generated.value)])
    ensures !(req.email.Some? && env.faults.existsFault.None? && req.email.value in s.users
              && env.generated.Ok? && env.mailDelivered) ==>
              st.next == s
    // A page that fails to render is a 500, after any mail went out.
    ensures req.email.Some? && env.faults.existsFault.None?
            && (req.email.value in s.users ==> env.generated.Ok? && env.mailDelivered)
            && !env.rendered ==>
              st.reply == Fail(HttpError(InternalServerError, "Internal server error."))
    ensures !st.reply.Panicked?
  {
    if req.email.None? then Rejected(BadRequest, "Email is required", s)
    else
      var email := req.email.value;
      match Exists(s.users, email, env.faults.existsFault)
      case Err(_) => Rejected(InternalServerError, "Something went wrong", s)
      case Ok(false) => RenderRecoverPage(false, env, s)
      case Ok(true) =>
        match env.generated
        case Err(_) => Rejected(InternalServerError, "Failed to generate token", s)
        case Ok(token) =>
          if !env.mailDelivered then Rejected(InternalServerError, "Failed to send email", s)
          else
            var mail := Mail(email, RecoverySubject, "http://localhost:8080/recover/" + token);
            RenderRecoverPage(true, env, s.(outbox := s.outbox + [mail]))
  }
}

=== FILE: http.dfy ===
/** The HTTP vocabulary the handlers answer with. */
module Http {

  /** The error statuses the handlers use; success statuses are carried by each handler's reply type. */
  datatype StatusCode = BadRequest | Unauthorized | NotFound | InternalServerError

  /** An error response: a status and the human-readable reason sent with it. */
  datatype HttpError = HttpError(status: StatusCode, message: string)

  /** The success statuses a handler answers with when it has no body. */
  datatype SuccessStatus = Created | OK

  /** A request field that is absent, present but of the wrong shape, or present and well-formed. */
  datatype Field<T> = Absent | Malformed | Present(value: T)

  /** A redirection to a path of the application. */
  datatype Redirect = Redirect(to: string)
}

=== FILE: input.dfy ===
/** Checks on user-supplied input: display names (a regex) and uploaded images (a size bound). */
module Input {
  import opened Wrappers
  import opened Http

  // ---------------------------------------------------------------------------
  // Display names
  // ---------------------------------------------------------------------------

  /** A range `lo-hi` inside a regex character class, both ends included. */
  datatype CharRange = CharRange(lo: char, hi: char)

  /** A regex of the shape `^[ranges]{min,max}$`: one character class repeated, anchored at both ends. */
  datatype AnchoredRepeat = AnchoredRepeat(ranges: seq<CharRange>, min: nat, max: nat)

  /** Membership of `c` in the character class made of `ranges`. */
  predicate InClass(c: char, ranges: seq<CharRange>) {
    exists i :: 0 <= i < |ranges| && ranges[i].lo <= c <= ranges[i].hi
  }

  /** Whether the whole of `s` matches `[ranges]{min,max}`, reading one character per step. */
  predicate MatchesRepeat(ranges: seq<CharRange>, min: nat, max: nat, s: string)
    decreases |s|
  {
    if |s| == 0 then min == 0
    else
      && 0 < max
      && InClass(s[0], ranges)
      && MatchesRepeat(ranges, if min == 0 then 0 else min - 1, max - 1, s[1..])
  }

  /** Whether the anchored regex `re` matches the whole of `s`. */
  predicate Matches(re: AnchoredRepeat, s: string) {
    MatchesRepeat(re.ranges, re.min, re.max, s)
  }

  /** The characters of Rust's Unicode `\s`, i.e. those with the White_Space property. */
  const WhitespaceRanges: seq<CharRange> := [
    CharRange('\t', '\r'),            // U+0009..U+000D
    CharRange(' ', ' '),
    CharRange('\U{85}', '\U{85}'),    // next line
    CharRange('\U{A0}', '\U{A0}'),    // no-break space
    CharRange('\U{1680}', '\U{1680}'),
    CharRange('\U{2000}', '\U{200A}'),
    CharRange('\U{2028}', '\U{2029}'),
    CharRange('\U{202F}', '\U{202F}'),
    CharRange('\U{205F}', '\U{205F}'),
    CharRange('\U{3000}', '\U{3000}')
  ]

  /** The ranges `a-z A-Z À-Ö Ø-ö ø-ÿ` of the display-name class, in the order the regex lists them. */
  const LetterRanges: seq<CharRange> := [
    CharRange('a', 'z'),
    CharRange('A', 'Z'),
    CharRange('\U{C0}', '\U{D6}'),    // À-Ö
    CharRange('\U{D8}', '\U{F6}'),    // Ø-ö
    CharRange('\U{F8}', '\U{FF}')     // ø-ÿ
  ]

  /** The display-name regex `^[a-zA-ZÀ-ÖØ-öø-ÿ\s'-]{2,50}$`. */
  const DisplayNameRegex: AnchoredRepeat :=
    AnchoredRepeat(LetterRanges + WhitespaceRanges + [CharRange('\'', '\''), CharRange('-', '-')], 2, 50)

  /** An ASCII letter. */
  predicate IsAsciiLetter(c: char) {
    'a' <= c <= 'z' || 'A' <= c <= 'Z'
  }

  /** A letter of the Latin-1 supplement: U+00C0..U+00FF except × (U+00D7) and ÷ (U+00F7). */
  predicate IsLatin1Letter(c: char) {
    '\U{C0}' <= c <= '\U{FF}' && c != '\U{D7}' && c != '\U{F7}'
  }

  /** The characters a display name may contain, stated without the regex's range list. */
  predicate IsDisplayNameChar(c: char) {
    IsAsciiLetter(c) || IsLatin1Letter(c) || InClass(c, WhitespaceRanges) || c == '\'' || c == '-'
  }

  lemma InClassConcat(c: char, a: seq<CharRange>, b: seq<CharRange>)
    ensures InClass(c, a + b) <==> InClass(c, a) || InClass(c, b)
  {
    if InClass(c, a + b) {
      var i :| 0 <= i < |a + b| && (a + b)[i].lo <= c <= (a + b)[i].hi;
      if i >= |a| {
        assert b[i - |a|] == (a + b)[i];
      }
    }
    if InClass(c, a) {
      var i :| 0 <= i < |a| && a[i].lo <= c <= a[i].hi;
      assert (a + b)[i] == a[i];
    }
    if InClass(c, b) {
      var i :| 0 <= i < |b| && b[i].lo <= c <= b[i].hi;
      assert (a + b)[|a| + i] == b[i];
    }
  }

  /** Whitespace lies outside the printable ASCII and Latin-1 letters, digits and punctuation. */
  lemma WhitespaceBounds(c: char)
    requires InClass(c, WhitespaceRanges)
    ensures c == ' ' || '\t' <= c <= '\r' || c == '\U{85}' || c == '\U{A0}' || '\U{1680}' <= c
  {
  }

  /** The regex's character class is exactly the set of display-name characters. */
  lemma DisplayNameClassIsDisplayNameChar(c: char)
    ensures InClass(c, DisplayNameRegex.ranges) <==> IsDisplayNameChar(c)
  {
    var marks := [CharRange('\'', '\''), CharRange('-', '-')];
    InClassConcat(c, LetterRanges + WhitespaceRanges, marks);
    InClassConcat(c, LetterRanges, WhitespaceRanges);
    assert InClass(c, LetterRanges) <==> IsAsciiLetter(c) || IsLatin1Letter(c) by {
      if IsAsciiLetter(c) || IsLatin1Letter(c) {
        if 'a' <= c <= 'z' { assert LetterRanges[0].lo <= c <= LetterRanges[0].hi; }
        else if 'A' <= c <= 'Z' { assert LetterRanges[1].lo <= c <= LetterRanges[1].hi; }
        else if c <= '\U{D6}' { assert LetterRanges[2].lo <= c <= LetterRanges[2].hi; }
        else if c <= '\U{F6}' { assert LetterRanges[3].lo <= c <= LetterRanges[3].hi; }
        else { assert LetterRanges[4].lo <= c <= LetterRanges[4].hi; }
      }
    }
    assert InClass(c, marks) <==> c == '\'' || c == '-' by {
      if c == '\'' { assert marks[0].lo <= c <= marks[0].hi; }
      if c == '-' { assert marks[1].lo <= c <= marks[1].hi; }
    }
  }

  /** An anchored repetition matches exactly the strings of allowed length made only of class characters. */
  lemma {:induction false} MatchesRepeatIsLengthAndClass(ranges: seq<CharRange>, min: nat, max: nat, s: string)
    ensures MatchesRepeat(ranges, min, max, s)
            <==> min <= |s| <= max && forall i :: 0 <= i < |s| ==> InClass(s[i], ranges)
    decreases |s|
  {
    if |s| > 0 && max > 0 {
      var min' := if min == 0 then 0 else min - 1;
      MatchesRepeatIsLengthAndClass(ranges, min', max - 1, s[1..]);
      assert forall i :: 0 <= i < |s[1..]| ==> s[1..][i] == s[i + 1];
      if forall i :: 0 <= i < |s[1..]| ==> InClass(s[1..][i], ranges) {
        if InClass(s[0], ranges) {
          forall i | 0 <= i < |s| ensures InClass(s[i], ranges) {
            if i > 0 { assert s[i] == s[1..][i - 1]; }
          }
        }
      }
    }
  }

  /**
   * `is_valid_display_name`: the anchored regex, which amounts to a length of 2 to 50 characters
   * all of which are letters (ASCII or Latin-1 except × and ÷), whitespace, apostrophes or hyphens.
   */
  function IsValidDisplayName(name: string): (valid: bool)
    ensures valid <==> 2 <= |name| <= 50 && forall i :: 0 <= i < |name| ==> IsDisplayNameChar(name[i])
  {
    DisplayNameIsLengthAndClass(name);
    Matches(DisplayNameRegex, name)
  }

  lemma DisplayNameIsLengthAndClass(name: string)
    ensures Matches(DisplayNameRegex, name)
            <==> 2 <= |name| <= 50 && forall i :: 0 <= i < |name| ==> IsDisplayNameChar(name[i])
  {
    MatchesRepeatIsLengthAndClass(DisplayNameRegex.ranges, 2, 50, name);
    forall i | 0 <= i < |name|
      ensures InClass(name[i], DisplayNameRegex.ranges) <==> IsDisplayNameChar(name[i])
    {
      DisplayNameClassIsDisplayNameChar(name[i]);
    }
  }

  /**
   * Names of 0, 1 or more than 50 characters are rejected whatever their content, and so is any
   * name holding a digit, ASCII punctuation other than `'` and `-`, × or ÷.
   */
  lemma DisplayNameRejections(name: string)
    ensures |name| < 2 || 50 < |name| ==> !IsValidDisplayName(name)
    ensures (exists i :: 0 <= i < |name| && '0' <= name[i] <= '9') ==> !IsValidDisplayName(name)
    ensures (exists i :: 0 <= i < |name| && name[i] in "!\"#$%&()*+,./:;<=>?@[\\]^_`{|}~") ==> !IsValidDisplayName(name)
    ensures '\U{D7}' in name || '\U{F7}' in name ==> !IsValidDisplayName(name)
  {
    forall i | 0 <= i < |name| {
      NotDisplayNameChar(name[i]);
    }
  }

  /** Digits, ASCII punctuation other than `'` and `-`, × and ÷ are not display-name characters. */
  lemma NotDisplayNameChar(c: char)
    ensures ('0' <= c <= '9' || c in "!\"#$%&()*+,./:;<=>?@[\\]^_`{|}~" || c == '\U{D7}' || c == '\U{F7}') ==>
              !IsDisplayNameChar(c)
  {
    if c in "!\"#$%&()*+,./:;<=>?@[\\]^_`{|}~" {
      PunctuationIsAsciiSymbol(c);
    }
    if '!' <= c <= '~' && !IsAsciiLetter(c) && c != '\'' && c != '-' {
      AsciiSymbolIsNotDisplayNameChar(c);
    }
  }

  /** The rejected punctuation is printable ASCII, neither a letter nor an apostrophe or hyphen. */
  lemma PunctuationIsAsciiSymbol(c: char)
    requires c in "!\"#$%&()*+,./:;<=>?@[\\]^_`{|}~"
    ensures '!' <= c <= '~' && !IsAsciiLetter(c) && c != '\'' && c != '-'
  {
  }

  /** A printable ASCII character other than a letter, `'` or `-` is not a display-name character. */
  lemma AsciiSymbolIsNotDisplayNameChar(c: char)
    requires '!' <= c <= '~' && !IsAsciiLetter(c) && c != '\'' && c != '-'
    ensures !IsDisplayNameChar(c)
  {
    if InClass(c, WhitespaceRanges) {
      WhitespaceBounds(c);
    }
  }

  // ---------------------------------------------------------------------------
  // Images
  // ---------------------------------------------------------------------------

  /** The largest accepted width and height, in pixels. */
  const MaxImageSide: nat := 500

  /** The largest accepted upload, in bytes (10 MiB). */
  const MaxImageBytes: nat := 10 * 1024 * 1024

  /** A parsed `Content-Type`: the MIME crate's verdict, with type and subtype as it normalises them. */
  datatype ContentType = Unparsable | Mime(top: string, sub: string)

  /** The dimensions the image decoder reports. */
  datatype Dimensions = Dimensions(width: nat, height: nat)

  /** The size check of `validate_image_file`: neither side above 500 pixels, at most 10 MiB. */
  predicate WithinImageBounds(dims: Dimensions, byteLen: nat) {
    !(dims.width > MaxImageSide || dims.height > MaxImageSide || byteLen > MaxImageBytes)
  }

  /**
   * `validate_image_file`: a JPEG (by MIME type) that decodes (`decoded`, the image crate's
   * verdict) and fits the size bound; every rejection is a 400 with the source's reason.
   */
  function ValidateImageFile(contentType: ContentType, decoded: Option<Dimensions>, byteLen: nat)
    : (r: Result<(), HttpError>)
    ensures r.Ok? <==>
              && contentType == Mime("image", "jpeg")
              && decoded.Some?
              && decoded.value.width <= MaxImageSide && decoded.value.height <= MaxImageSide
              && byteLen <= MaxImageBytes
    ensures r.Err? ==> r.error.status == BadRequest
    ensures contentType.Unparsable? ==> r == Err(HttpError(BadRequest, "Invalid file type"))
    ensures contentType.Mime? && contentType != Mime("image", "jpeg") ==>
              r == Err(HttpError(BadRequest, "Only .jpg files are allowed"))
    ensures contentType == Mime("image", "jpeg") && decoded.None? ==>
              r == Err(HttpError(BadRequest, "Invalid image file"))
    ensures contentType == Mime("image", "jpeg") && decoded.Some? && !WithinImageBounds(decoded.value, byteLen) ==>
              r == Err(HttpError(BadRequest, "Image is too large. Max 500x500 pixels and 10MB"))
  {
    match contentType
    case Unparsable => Err(HttpError(BadRequest, "Invalid file type"))
    case Mime(top, sub) =>
      if top != "image" || sub != "jpeg" then Err(HttpError(BadRequest, "Only .jpg files are allowed"))
      else if decoded.None? then Err(HttpError(BadRequest, "Invalid image file"))
      else if !WithinImageBounds(decoded.value, byteLen) then
        Err(HttpError(BadRequest, "Image is too large. Max 500x500 pixels and 10MB"))
      else Ok(())
  }

  /** Shrinking an accepted image — fewer pixels on either side, fewer bytes — keeps it accepted. */
  lemma SmallerImageStaysAccepted(
    contentType: ContentType, width: nat, height: nat, byteLen: nat, width': nat, height': nat, byteLen': nat)
    requires ValidateImageFile(contentType, Some(Dimensions(width, height)), byteLen).Ok?
    requires width' <= width && height' <= height && byteLen' <= byteLen
    ensures ValidateImageFile(contentType, Some(Dimensions(width', height')), byteLen').Ok?
  {
  }
}

=== FILE: passkeys.dfy ===
/**
 * The values the webauthn-rs library produces and consumes, and the library itself as a record of
 * uninterpreted operations. The model never looks inside these values; it only moves them around.
 */
module Passkeys {
  import opened Wrappers

  /** A user's address, the key of every per-user store. */
  type Email = string

  /** A registered public-key credential. */
  datatype Passkey = Passkey(credentialId: string, publicKey: string)

  /** The library's private state between the two halves of a registration ceremony. */
  datatype PasskeyRegistration = PasskeyRegistration(handle: string)

  /** The library's private state between the two halves of an authentication ceremony. */
  datatype PasskeyAuthentication = PasskeyAuthentication(handle: string)

  /** The client's signed attestation, as submitted to the registration completion. */
  datatype RegisterPublicKeyCredential = RegisterPublicKeyCredential(raw: string)

  /** The client's signed assertion, as submitted to the login completion. */
  datatype PublicKeyCredential = PublicKeyCredential(raw: string)

  /**
   * The `publicKey` object sent to the client to start a ceremony. Only its challenge is read by
   * the server; the other members are copied from the library verbatim.
   */
  datatype PublicKeyOptions = PublicKeyOptions(challenge: string, others: string)

  /**
   * The webauthn-rs operations used, for the fixed relying party `localhost` at
   * `http://localhost:8080`. `None` or `false` is the library's refusal.
   *   startRegistration(userHandle, userName, displayName)
   *   finishRegistration(response, state)  -> the verified passkey
   *   startAuthentication(allowedPasskeys)
   *   finishAuthentication(response, state) -> whether the assertion verifies
   */
  datatype Library = Library(
    startRegistration: (string, string, string) -> Option<(PublicKeyOptions, PasskeyRegistration)>,
    finishRegistration: (RegisterPublicKeyCredential, PasskeyRegistration) -> Option<Passkey>,
    startAuthentication: seq<Passkey> -> Option<(PublicKeyOptions, PasskeyAuthentication)>,
    finishAuthentication: (PublicKeyCredential, PasskeyAuthentication) -> bool)
}

=== FILE: user_store.dfy ===
/**
 * The durable user database (`database::user`), whose implementation is not part of this model:
 * a map from email to user record, and operations that either fail with the fault the caller
 * injects or act on the map.
 */
module UserStore {
  import opened Wrappers
  import opened Passkeys

  /** A stored account. */
  datatype User = User(firstName: string, lastName: string, passkey: Option<Passkey>, verified: bool)

  type Users = map<Email, User>

  /** A database failure and its text. */
  datatype DbError = DbError(message: string)

  /** The failure reported when an update names an email with no account. */
  const NoSuchUser := DbError("no such user")

  /** `exists`. */
  function Exists(users: Users, email: Email, fault: Option<DbError>): (r: Result<bool, DbError>)
    ensures r.Ok? <==> fault.None?
    ensures r.Ok? ==> (r.value <==> email in users)
  {
    if fault.Some? then Err(fault.value) else Ok(email in users)
  }

  /** `create`: a new, unverified account without a passkey. */
  function Create(users: Users, email: Email, firstName: string, lastName: string, fault: Option<DbError>)
    : (r: Result<Users, DbError>)
    ensures r.Ok? <==> fault.None?
    ensures r.Ok? ==> r.value.Keys == users.Keys + {email}
    ensures r.Ok? ==> r.value[email] == User(firstName, lastName, None, false)
    ensures r.Ok? ==> forall e :: e in users && e != email ==> r.value[e] == users[e]
  {
    if fault.Some? then Err(fault.value) else Ok(users[email := User(firstName, lastName, None, false)])
  }

  /** `set_passkey`: replaces the account's one passkey. */
  function SetPasskey(users: Users, email: Email, passkey: Passkey, fault: Option<DbError>)
    : (r: Result<Users, DbError>)
    ensures r.Ok? <==> fault.None? && email in users
    ensures r.Ok? ==> r.value.Keys == users.Keys
    ensures r.Ok? ==> r.value[email] == users[email].(passkey := Some(passkey))
    ensures r.Ok? ==> forall e :: e in users && e != email ==> r.value[e] == users[e]
  {
    if fault.Some? then Err(fault.value)
    else if email !in users then Err(NoSuchUser)
    else Ok(users[email := users[email].(passkey := Some(passkey))])
  }

  /** `get_passkey`: the account's passkey, `None` when there is no account or no passkey. */
  function GetPasskey(users: Users, email: Email, fault: Option<DbError>): (r: Result<Option<Passkey>, DbError>)
    ensures r.Ok? <==> fault.None?
    ensures r.Ok? && r.value.Some? <==> fault.None? && email in users && users[email].passkey.Some?
    ensures r.Ok? && r.value.Some? ==> r.value == users[email].passkey
  {
    if fault.Some? then Err(fault.value)
    else if email in users then Ok(users[email].passkey)
    else Ok(None)
  }

  /** `verify`: marks the account's email as verified. */
  function Verify(users: Users, email: Email, fault: Option<DbError>): (r: Result<Users, DbError>)
    ensures r.Ok? <==> fault.None? && email in users
    ensures r.Ok? ==> r.value == users[email := users[email].(verified := true)]
  {
    if fault.Some? then Err(fault.value)
    else if email !in users then Err(NoSuchUser)
    else Ok(users[email := users[email].(verified := true)])
  }
}

=== FILE: webauthn.dfy ===
/**
 * The server side of the passkey ceremonies (`utils/webauthn.rs`): thin wrappers around the
 * library that add the in-memory passkey cache and the durable store.
 */
module WebAuthn {
  import opened Wrappers
  import opened Passkeys
  import opened UserStore

  /** The in-memory passkey cache (`CREDENTIAL_STORE`) that sits next to the durable store. */
  type Cache = map<Email, Passkey>

  /** What `register_begin` keeps until `register_complete`: the library state and the issued challenge. */
  datatype StoredRegistrationState = StoredRegistrationState(registrationState: PasskeyRegistration, challenge: string)

  /** `begin_registration`: the library's registration challenge for a fresh user handle. */
  function BeginRegistration(lib: Library, userHandle: string, email: Email, displayName: string)
    : (r: Result<(PublicKeyOptions, PasskeyRegistration), string>)
    ensures r.Ok? <==> lib.startRegistration(userHandle, email, displayName).Some?
    ensures r.Ok? ==> Some(r.value) == lib.startRegistration(userHandle, email, displayName)
    ensures r.Err? ==> r.error == "Failed to start registration."
  {
    match lib.startRegistration(userHandle, email, displayName)
    case Some(started) => Ok(started)
    case None => Err("Failed to start registration.")
  }

  /** The outcome of `complete_registration` together with the cache and store it leaves behind. */
  datatype RegistrationEffect = RegistrationEffect(result: Result<(), string>, cache: Cache, users: Users)

  /**
   * `complete_registration`: verifies the attestation against the stored library state; on success
   * the cache learns the new passkey first and the durable store second, so a store failure leaves
   * the passkey cached but not persisted.
   */
  function CompleteRegistration(
    lib: Library, email: Email, response: RegisterPublicKeyCredential, stored: StoredRegistrationState,
    cache: Cache, users: Users, storeFault: Option<DbError>): (out: RegistrationEffect)
    ensures out.result.Ok? <==>
              lib.finishRegistration(response, stored.registrationState).Some? && storeFault.None? && email in users
    ensures lib.finishRegistration(response, stored.registrationState).None? ==>
              out == RegistrationEffect(Err("Failed to end registration"), cache, users)
    ensures lib.finishRegistration(response, stored.registrationState).Some? ==>
              out.cache == cache[email := lib.finishRegistration(response, stored.registrationState).value]
    ensures lib.finishRegistration(response, stored.registrationState).Some? && out.result.Err? ==>
              out.result.error == "Failed to set passkey for user"
    ensures out.result.Err? ==> out.users == users
    ensures out.result.Ok? ==> out.users.Keys == users.Keys
    ensures out.result.Ok? ==> out.users[email] == users[email].(passkey := Some(out.cache[email]))
    ensures out.result.Ok? ==> forall e :: e in users && e != email ==> out.users[e] == users[e]
  {
    match lib.finishRegistration(response, stored.registrationState)
    case None => RegistrationEffect(Err("Failed to end registration"), cache, users)
    case Some(passkey) =>
      var cache' := cache[email := passkey];
      match SetPasskey(users, email, passkey, storeFault)
      case Err(_) => RegistrationEffect(Err("Failed to set passkey for user"), cache', users)
      case Ok(users') => RegistrationEffect(Ok(()), cache', users')
  }

  /** The library's authentication challenge that allows exactly the one passkey `passkey`. */
  function StartAuthentication(lib: Library, passkey: Passkey): (r: Result<(PublicKeyOptions, PasskeyAuthentication), string>)
    ensures r.Ok? <==> lib.startAuthentication([passkey]).Some?
    ensures r.Ok? ==> Some(r.value) == lib.startAuthentication([passkey])
    ensures r.Err? ==> r.error == "Failed to start authentification"
  {
    match lib.startAuthentication([passkey])
    case Some(started) => Ok(started)
    case None => Err("Failed to start authentification")
  }

  /**
   * `begin_authentication`: the passkey comes from the cache when it holds one for `email`, and
   * only otherwise from the durable store; the ceremony then allows that single passkey.
   */
  function BeginAuthentication(lib: Library, email: Email, cache: Cache, users: Users, loadFault: Option<DbError>)
    : (r: Result<(PublicKeyOptions, PasskeyAuthentication), string>)
    ensures email in cache ==> r == StartAuthentication(lib, cache[email])
    ensures email !in cache && loadFault.Some? ==> r == Err("Failed to retrieve passkey from database")
    ensures email !in cache && loadFault.None? && (email !in users || users[email].passkey.None?) ==>
              r == Err("Failed to retrieve passkey")
    ensures email !in cache && loadFault.None? && email in users && users[email].passkey.Some? ==>
              r == StartAuthentication(lib, users[email].passkey.value)
  {
    var found: Result<Option<Passkey>, string> :=
      if email in cache then Ok(Some(cache[email]))
      else match GetPasskey(users, email, loadFault)
        case Err(_) => Err("Failed to retrieve passkey from database")
        case Ok(passkey) => Ok(passkey);
    match found
    case Err(message) => Err(message)
    case Ok(None) => Err("Failed to retrieve passkey")
    case Ok(Some(passkey)) => StartAuthentication(lib, passkey)
  }

  /**
   * `complete_authentication`: exactly the library's verdict on the assertion. The challenge the
   * server recorded at login begin is accepted as an argument but never read.
   */
  function CompleteAuthentication(
    lib: Library, response: PublicKeyCredential, state: PasskeyAuthentication, serverChallenge: string)
    : (r: Result<(), string>)
    ensures r.Ok? <==> lib.finishAuthentication(response, state)
    ensures r.Err? ==> r.error == "Failed to finish authentication"
  {
    if lib.finishAuthentication(response, state) then Ok(()) else Err("Failed to finish authentication")
  }

  /** Two different server challenges never change the outcome of an authentication completion. */
  lemma ServerChallengeIsIgnored(
    lib: Library, response: PublicKeyCredential, state: PasskeyAuthentication, c1: string, c2: string)
    ensures CompleteAuthentication(lib, response, state, c1) == CompleteAuthentication(lib, response, state, c2)
  {
  }

  /** On a cache hit, neither the durable store's contents nor its failures affect the outcome. */
  lemma CacheHitIgnoresStore(
    lib: Library, email: Email, cache: Cache, users1: Users, users2: Users, fault1: Option<DbError>, fault2: Option<DbError>)
    requires email in cache
    ensures BeginAuthentication(lib, email, cache, users1, fault1) == BeginAuthentication(lib, email, cache, users2, fault2)
  {
  }
}

=== FILE: wrappers.dfy ===
/** Failure-compatible wrappers shared by every module of the model. */
module Wrappers {

  /** An optional value: an absent JSON field, a cache miss, a library refusal. */
  datatype Option<+T> = None | Some(value: T) {

    /** The wrapped value, or `default` when there is none (Rust's `unwrap_or`). */
    function GetOr(default: T): T {
      match this
      case Some(v) => v
      case None => default
    }

    /** This value when there is one, otherwise `other` (Rust's `or`). */
    function Or(other: Option<T>): Option<T> {
      match this
      case Some(_) => this
      case None => other
    }
  }

  /** A value or an error, as Rust's `Result<T, E>`. */
  datatype Result<+T, +E> = Ok(value: T) | Err(error: E)
}
